=== FILE: README.md ===
# Scheduler simulators, modelled in Dafny

This project models the four single-CPU scheduling simulators of the `Schedulers/` directory. Each one is a sequential function from an ordered list of process records (`name, duration, arrival, ioFrequency`) to an execution trace. A trace is a sequence of tokens:

- `Run(name)` is one executed tick.
- `IO(name)` is the `!name` marker.

The project proves properties of that model. The modules follow the source files:

| module | file | source |
|---|---|---|
| `Common` | `common.dfy` | Process records, trace tokens and token counts. Owed work. The arrival gate of both STCF variants. |
| `Fcfs` | `fcfs.dfy` | `fcfs_scheduler` (`Schedulers/fcfs.py`). Non-preemptive: whole blocks in list order, with markers interleaved. |
| `Stcf` | `stcf.dfy` | `stcf_scheduler` (`Schedulers/stcf.py`). Every tick, a stable re-sort by remaining time, with the previous head first on ties. The head runs one tick. |
| `StcfHeap` | `stcf_heap.dfy` | `stcf_scheduler` (`Schedulers/2328024.py`). A ready heap and an I/O heap, modelled as unordered sequences with "pop some minimum" or "pop some element". |
| `MlfqBoost` | `mlfq_boost.dfy` | The boost scan of `mlqf_scheduler` (`Schedulers/test.py`), including Python's remove-while-iterating skip. |
| `Mlfq` | `mlfq.dfy` | `mlqf_scheduler` (`Schedulers/test.py`): four FIFO tiers, quanta `{3: 1, 2: 2, 1: 3, 0: 4}`, I/O requeue, demotion, waiting credit and boost. |

The three preemptive schedulers (`Stcf`, `StcfHeap`, `Mlfq`) are each a `State` datatype plus a pure `Step` function, which is one iteration of the source's outer loop. Each has a run to the end that either terminates by a measure or uses an iteration budget.

- FCFS is written as the source's two loops, as methods. They are proved equal to a reference trace, `Fcfs.Blocks`, which is one block per process.
- Every source file's `Process.__init__` (for example `Schedulers/test.py:2-9`) is `Common.Fresh`, which `Common.FromJobs` applies to the input list. A new process has its full duration left, an I/O counter of 0, MLFQ priority 3 and no waiting credit. FCFS never changes a process object (`Schedulers/fcfs.py:9-13`), so it works on the input record `Common.Job` itself.
- The heap variant's choice among equal-duration processes depends on the heap's layout, so the model leaves it open. The choice is a ghost `:|`, which makes its `Step` a ghost function.

The recurring properties are:

- **Work conservation.** Each name's `Run` tokens add up to the durations of the records with that name.
- **Selection rules.** Shortest remaining time for the two STCF variants, with the tie-break of the sorted-list variant. Head of the highest non-empty tier for MLFQ.
- **Marker rules.** When each scheduler appends a `!name` marker. For FCFS, after a tick whose count the frequency divides, except the final one (`Fcfs.MarkerPosition`). For sorted-list STCF, when work is left and the counter reaches the frequency (`Stcf.StepRunsShortest`). For heap STCF, only on a tick with an empty ready heap (`StcfHeap.StepServesIO`). For MLFQ, after any tick at which the counter reaches the interval, the final tick included (`Mlfq.BurstClosedForm`).
- **Tier invariants.** Every queued MLFQ process sits in the tier of its priority, which lies in 0..3.
- **Progress measures** for every loop that ends.

Points where the code behaves in a way a reader might not expect, all kept by the model:

- **MLFQ arrival test.** `Schedulers/test.py:23` admits a process only when its arrival time *equals* the clock, while a turn can move the clock by several ticks. See Findings.
- **MLFQ credit on demotion.** On demotion into tier 0, the credit grows by `quantum_map[0]` (4), whatever quantum was used (`Schedulers/test.py:56-57`). The I/O path (`Schedulers/test.py:44-51`) leaves the credit as it is.
- **MLFQ marker after the last tick.** The MLFQ I/O test does not look at the work left (`Schedulers/test.py:44`). A marker can therefore follow a process's final tick. The process is then queued in tier 3 with no work, and a later zero-tick turn drops it.
- **Sorted-list STCF tie-break.** The sort key `(duration, x != queue[0])` (`Schedulers/stcf.py:27`) puts the previous head first among processes of equal remaining time. Python's sort is stable, so the others keep their previous list order.
- **Heap STCF I/O.** The heap variant does not take a process off the ready heap on I/O (`Schedulers/2328024.py:48-54`). It pushes the process to the I/O heap as well. A marker is served only on a tick when the ready heap is empty (`Schedulers/2328024.py:56-59`).

## Model

| member | source | states |
|---|---|---|
| Common.AdmitCount | Schedulers/stcf.py:23-24 | The admission loop pops exactly a prefix. Every popped process has arrived by the clock, and the next one has not. On an arrival-sorted list, no later process has arrived either. |
| Fcfs.FcfsScheduler | Schedulers/fcfs.py:15-34 | The trace is one whole block per process, in list order. Each block starts exactly at the later of its process's arrival and the end of the previous block (time 0 for the first). So it starts at or after the arrival, and at least the predecessor's duration after the predecessor started. |
| Fcfs.RunToCompletion | Schedulers/fcfs.py:23-32 | The inner loop produces exactly the process's block, one tick and an optional marker per unit of duration. The clock moves by the duration, or not at all for a non-positive one. |
| Fcfs.BlocksRuns | Schedulers/fcfs.py:19-28 | Work conservation: the trace holds as many `Run(n)` tokens as the positive durations of the records named `n` add up to, and as many `Run` tokens in all as the total duration. |
| Fcfs.NonPreemptive | Schedulers/fcfs.py:19-32 | The block of the i-th process follows the blocks of all earlier processes and appears whole and contiguous in the trace. Every token in it carries that process's name. |
| Fcfs.MarkerPosition | Schedulers/fcfs.py:25-32 | The token after the k-th executed tick is a marker exactly when the I/O frequency is positive, divides k, and k is not the final tick. |
| Fcfs.BlockMarkers | Schedulers/fcfs.py:25-32 | A process with a non-positive frequency or a non-positive duration emits no marker. With a positive frequency and a positive duration, it emits `(duration - 1) / frequency` markers. |
| Fcfs.BlockLength | Schedulers/fcfs.py:25-32 | A block is one token per tick plus its markers. That is `max(duration, 0)` tokens with I/O disabled. With a positive frequency and a positive duration it is `duration + (duration - 1) / frequency`. A block of a non-positive duration is empty. |
| Fcfs.BlockEndsWithRun | Schedulers/fcfs.py:31 | No marker follows a process's final tick: its block ends with a `Run`. |
| Fcfs.TraceIgnoresArrival | Schedulers/fcfs.py:19-21 | Arrival times only move the clock. Two lists that differ only in arrival times produce the same trace. |
| Stcf.Resort | Schedulers/stcf.py:27 | The per-tick re-sort is a permutation of the ready list, ordered by remaining time. |
| Stcf.ResortStable | Schedulers/stcf.py:27 | The sort is stable. Processes with equal remaining time keep their relative order, and the previous head stays in front of its equals. |
| Stcf.SelectionRule | Schedulers/stcf.py:27-30 | After the re-sort, the head is the first process, in the previous list order, of minimal remaining time. If the previous head has minimal time, it keeps the CPU. |
| Stcf.Step | Schedulers/stcf.py:21-45 | One iteration pops exactly the arrived prefix of the pending list, advances the clock by one and only extends the trace. Every process left has work to do. |
| Stcf.StepIdle | Schedulers/stcf.py:29-45 | With an empty ready list, the iteration emits nothing, admits nothing and only advances the clock. |
| Stcf.StepRunsShortest | Schedulers/stcf.py:27-39 | The iteration runs a process of minimal remaining time, the previous head on a tie. It appends that process's `Run`, plus its marker exactly when work is left and the counter reaches the frequency, and nothing else. |
| Stcf.StepQueue | Schedulers/stcf.py:33-43 | Only the process that ran changes in the ready list. It is dropped when its work is done, and otherwise stays with one unit less. |
| Stcf.StepConserves | Schedulers/stcf.py:29-43 | Per name, `Run` tokens plus the work still owed stay constant across an iteration. |
| Stcf.StepProgress | Schedulers/stcf.py:21-45 | Each iteration either lowers the owed work or keeps it and brings the next arrival one tick closer, so the loop ends. |
| Stcf.RunToEnd | Schedulers/stcf.py:21-45 | The loop ends with nothing pending or ready. The trace has gained exactly the owed work as `Run` tokens, per name. |
| Stcf.StcfScheduler | Schedulers/stcf.py:16-47 | On positive durations, the trace holds per name exactly the total duration of that name's records as `Run` tokens. |
| Stcf.NoIOStep | Schedulers/stcf.py:21-45 | If no process in the system has I/O switched on, none has it switched on after the iteration either. |
| Stcf.NoIOQuiet | Schedulers/stcf.py:37-39 | With I/O switched off everywhere, an iteration appends no marker: the counter never equals a frequency of 0 or below. |
| Stcf.NoIORun | Schedulers/stcf.py:21-45 | A run in which no process has I/O switched on adds no marker to the trace. |
| Stcf.SchedulerWithoutIO | Schedulers/stcf.py:16-47 | On positive durations with every I/O frequency 0 or below, the trace holds no marker. |
| StcfHeap.Remove | Schedulers/2328024.py:40 | Popping a heap removes exactly the chosen element. |
| StcfHeap.Chosen | Schedulers/2328024.py:38-41 | The popped process is one of the ready ones, with remaining time no larger than any other. The heap orders by duration alone. |
| StcfHeap.Step | Schedulers/2328024.py:32-61 | One iteration pops exactly the arrived prefix of the pending list, advances the clock by one and appends at most one token. |
| StcfHeap.StepRunsShortest | Schedulers/2328024.py:38-54 | With a ready process, the iteration appends one `Run` of a shortest one. It pushes that process's name to the I/O heap exactly when work is left and the counter reaches the frequency, and puts it back into the ready heap exactly when work is left. |
| StcfHeap.StepServesIO | Schedulers/2328024.py:38-59 | A marker is appended exactly when no process is ready and the I/O heap is not empty. It names a waiting process, which leaves the I/O heap. |
| StcfHeap.StepAccounts | Schedulers/2328024.py:48-59 | Every I/O request issued so far is either still waiting or has produced exactly one marker, and each iteration keeps it so. |
| StcfHeap.StepConserves | Schedulers/2328024.py:38-54 | Per name, `Run` tokens plus owed work stay constant. Every admitted process owes at least one tick, because it runs once before its remaining time is checked. |
| StcfHeap.StepProgress | Schedulers/2328024.py:32-61 | Each iteration does one unit of work, serves one I/O request, or brings the next arrival one tick closer. |
| StcfHeap.RunToEnd | Schedulers/2328024.py:32-61 | The loop ends with every container empty. The trace gains the owed work as `Run` tokens, and its markers equal the I/O requests issued. |
| StcfHeap.HeapScheduler | Schedulers/2328024.py:26-64 | For any input, each name's `Run` tokens add up to its records' durations, counting at least one tick per record. There is one marker per I/O request, and every container ends empty. |
| MlfqBoost.BoostScan | Schedulers/test.py:63-68 | The scan as written removes from tier 0 while iterating over it. It keeps the number of processes across the two tiers. |
| MlfqBoost.ScanKeepsProcesses | Schedulers/test.py:63-68 | The scan makes up no process. Tier 3 keeps its old processes in front, and tier 0 keeps only processes it held. Each process appended to tier 3 is the boosted form of one taken from tier 0. Which ones move is stated by `MlfqBoost.ScanIsSweep`. |
| MlfqBoost.ScanIsSweep | Schedulers/test.py:63-68 | The scan as written equals a reference sweep in which an element is examined exactly when its predecessor was not boosted. |
| MlfqBoost.ScanPasses | Schedulers/test.py:63-66 | After a removal, the element that slid under the iterator is passed over unexamined, and the scan goes on as the sweep of the rest. |
| MlfqBoost.Boost | Schedulers/test.py:62-68 | The boost of a turn keeps the unboosted processes of tier 0 and appends the boosted ones to tier 3, both in list order. |
| MlfqBoost.SweepSplits | Schedulers/test.py:63-68 | Boosted processes have priority 3 and no credit. The kept ones come from tier 0, and work is neither lost nor gained. An examined head moves exactly when its credit reaches 11. |
| MlfqBoost.SkipsAfterRemoval | Schedulers/test.py:63-68 | Of two adjacent eligible processes, only the first is boosted. The second is skipped and stays in tier 0. |
| Mlfq.Arrivals | Schedulers/test.py:23 | The admitted processes all pass the gate and come from the pending list. |
| Mlfq.Waiting | Schedulers/test.py:23-25 | The processes left pending all fail the gate and come from the pending list. |
| Mlfq.AdmitPartition | Schedulers/test.py:23-26 | Admission splits the pending list into admitted and waiting processes, without losing, duplicating or changing any. |
| Mlfq.AdmitMembership | Schedulers/test.py:23-26 | A pending process is admitted if and only if it passes the gate, and stays pending if and only if it does not. |
| Mlfq.Admit | Schedulers/test.py:23-26 | Admission keeps every process in the tier of its priority, and changes neither the clock nor the trace. |
| Mlfq.AdmitConserves | Schedulers/test.py:23-26 | Admission changes no process's owed work. |
| Mlfq.Top | Schedulers/test.py:28-32 | The selected tier is the highest non-empty one, searched 3, 2, 1, 0. It is -1 exactly when every tier is empty. |
| Mlfq.BurstClosedForm | Schedulers/test.py:34-51 | With `d` ticks until the I/O interval and `cap` ticks allowed by the quantum and the work: the turn ends in I/O exactly when `1 <= d <= cap`, after `d` ticks with the counter reset and priority 3, and otherwise after `cap` ticks. |
| Mlfq.BurstBounds | Schedulers/test.py:35-41 | A turn runs at most its quantum and at most the work left. It never drives the remaining time below 0, and it runs at least one tick when both are positive. |
| Mlfq.Demote | Schedulers/test.py:54-59 | Demotion lowers the priority by one, floored at 0. On reaching tier 0 the credit grows by 4; otherwise it is cleared. Nothing else changes. |
| Mlfq.BoostKeepsTiers | Schedulers/test.py:62-68 | After the boost, tier 0 holds only priority-0 processes and tier 3 only priority-3 ones. |
| Mlfq.Turn | Schedulers/test.py:34-68 | A turn keeps every process in the tier of its priority, so priorities stay in 0..3. |
| Mlfq.Step | Schedulers/test.py:22-71 | Every iteration keeps every process in the tier of its priority, so priorities stay in 0..3. |
| Mlfq.StepIdle | Schedulers/test.py:70-71 | With every tier empty after admission, the iteration emits nothing, advances the clock by one and leaves the non-admitted processes pending. |
| Mlfq.StepRunsHead | Schedulers/test.py:28-51 | Otherwise, the head of the highest non-empty tier runs. The iteration appends one `Run` per tick and then the marker if the turn ended in I/O. The clock advances by the ticks run, which are at most the tier's quantum. |
| Mlfq.SweepKeepsOrBoosts | Schedulers/test.py:63-68 | Every process in tier 0 before the boost is still there afterwards, or has been boosted into tier 3. |
| Mlfq.TurnOutcome | Schedulers/test.py:43-68 | Where the running process ends up after its turn: appended to tier 3 after I/O, appended to the tier below after a used-up quantum with work left (or boosted on reaching tier 0), or gone when its work is done. |
| Mlfq.TurnRequeuesIO | Schedulers/test.py:44-51 | When the I/O interval is reached within the quantum and the work, the process sits in tier 3 right after the processes queued there before. It has priority 3, its counter is reset, and its work is lowered by the ticks run. |
| Mlfq.TurnDemotes | Schedulers/test.py:53-60 | Without I/O and with work left after the whole quantum, the process has run exactly its quantum and is demoted with the credit rule. A new tier of 1 or 2 gets it appended at its tail. With tier 0 as the new tier, it is in tier 0 after the turn, or boosted into tier 3 by the same turn's scan. |
| Mlfq.TurnFinishes | Schedulers/test.py:34-54 | Without I/O and with no work left, the process is not requeued: the tiers hold one process fewer. |
| Mlfq.StepConserves | Schedulers/test.py:22-71 | Per name, `Run` tokens plus owed work stay constant across an iteration: a turn turns each executed tick into one `Run` token and one unit less of owed work, and admission, requeueing and the boost move processes without changing their work. |
| Mlfq.GuardHeldAt | Schedulers/test.py:22 | `GuardHeld(s, g, k)`, which the run methods promise, means that the `while` guard was true in the state before each of the first `k` iterations. |
| Mlfq.RunFuel | Schedulers/test.py:22-71 | The outer loop with an iteration budget. The result is the state after `steps` iterations, and the loop guard held before each of them. If the run finishes, the guard fails, and all owed work has become `Run` tokens, per name. If it runs out, the guard still holds. |
| Mlfq.MlfqScheduler | Schedulers/test.py:15-73 | The scheduler as written, with an iteration budget. The outcome is the loop's state after `steps` iterations from the initial state, with the guard true before each. It stops early only where the guard fails. A finished run gives every name the total duration of its records as `Run` tokens. |
| Mlfq.StalledStep | Schedulers/test.py:22-26 | With every tier empty and every pending arrival already in the past, an iteration only advances the clock, and the state stays so. |
| Mlfq.StalledForever | Schedulers/test.py:22-26 | From such a state the loop never admits anything again, so the pending list never changes. |
| Mlfq.ExactGateSpins | Schedulers/test.py:23 | On `X(4, 0, 0), Y(1, 2, 0)`, the loop guard holds after any number of iterations. From the third iteration on, `Y` is stuck pending. |
| Mlfq.StepProgress | Schedulers/test.py:22-71 | With the corrected gate, every iteration lowers the owed work, or keeps it and lowers the number of processes, or keeps both and brings the next arrival one tick closer. |
| Mlfq.RunToEnd | Schedulers/test.py:22-71 | With the corrected gate, the loop ends for every input. The result is the state after `steps` iterations, the first at which the guard fails, so every container is empty. All owed work has been turned into `Run` tokens, per name. |
| Mlfq.MlfqSchedulerByNow | Schedulers/test.py:15-73 | With the corrected gate, the scheduler ends on every input. Its result is the loop's state at the first iteration where the guard fails, counted from the initial state. Every name's `Run` tokens add up to the durations of its records. |

## Left out

- The `main` functions: argument checks, file reading, CSV parsing, output paths, writes and exit codes (`Schedulers/fcfs.py:36-92`, `Schedulers/stcf.py:49-105`, `Schedulers/2328024.py:67-122`). These are I/O.
- The arrival sort in each `main` (for example `Schedulers/fcfs.py:68`). The schedulers take the list as given. The arrival order appears as the predicate `Common.ArrivalSorted`, and only the STCF gate needs it.
- The `config.json` loading at import time. It is file I/O.
- The joining of the trace into a string and the replacement of double spaces. The trace is kept as a sequence of tokens.
- The module-level fixture run of `Schedulers/test.py:75-83`.
- The sift order of `heapq`. Which of several equal-duration processes the ready heap pops, and which name the I/O heap pops, are left open: any minimum, or any element. The I/O heap holds only names, because the source keeps changing the objects it pushed there, so its order carries no meaning.
- Python object identity is not modelled as such. Each process object sits exactly once in one list, so its position stands for it. The tie key `x != queue[0]` becomes a flag on the entry at position 0 (`Stcf.Tag`). The `remove` of the boost scan removes at the scan's position (`MlfqBoost.BoostScan`). MLFQ admission filters the pending list by the gate.
- Stcf.Step: requires every pending and ready process to have work left, and Stcf.StcfScheduler requires positive durations. With a non-positive duration, `Schedulers/stcf.py:42` never removes the process, and the source loops forever.
- Mlfq.MlfqScheduler: with the source's equality gate, the run is stated only for runs that finish within the iteration budget. Termination does not hold in general (see Findings).
- Clocks never overflow. Python integers are unbounded, and so are Dafny's.

## Findings

| source | as written | input that shows it | evidently intended | confidence | as-written member | corrected member |
|---|---|---|---|---|---|---|
| Schedulers/test.py:23 | Admission tests `p.arrival_time == time`, but a turn advances the clock by up to 4 ticks at once. | `X(4, 0, 0), Y(1, 2, 0)`: `X` runs 1 tick in tier 3, 2 in tier 2 and 1 in tier 1. The clock goes 0, 1, 3, 4 and never equals 2, so `Y` is never admitted and `while processes or ...` spins forever. | `p.arrival_time <= time`: admit every process that has arrived by the clock, as the STCF variants do. | high; not executed | Mlfq.ExactGateSpins | Mlfq.MlfqSchedulerByNow |

=== FILE: common.dfy ===
/** Records, trace tokens and the arrival gate shared by every scheduler. */
module Common {

  /** One input record of the process list: `name,duration,arrival,ioFrequency`. */
  datatype Job = Job(name: string, duration: int, arrival: int, ioFrequency: int)

  /** The mutable state of one process while it is being scheduled.
      `remaining` is the source's decremented `duration` (`remaining_burst_time` in MLFQ);
      `priority` and `wait` are used by MLFQ only. */
  datatype Proc = Proc(name: string, remaining: int, arrival: int, ioFrequency: int,
                       sinceIO: int, priority: int, wait: int)

  /** One token of the execution trace: `Run(n)` is one executed tick of `n`,
      `IO(n)` is the `!n` marker. */
  datatype Token = Run(name: string) | IO(name: string)

  /** A freshly constructed process: nothing run, no I/O yet, top MLFQ tier, no aging. */
  function Fresh(j: Job): (p: Proc)
    ensures p.name == j.name && p.remaining == j.duration
    ensures p.arrival == j.arrival && p.ioFrequency == j.ioFrequency
    ensures p.sinceIO == 0 && p.priority == 3 && p.wait == 0
  {
    Proc(j.name, j.duration, j.arrival, j.ioFrequency, 0, 3, 0)
  }

  /** The process objects built from the input list, in input order. */
  function FromJobs(js: seq<Job>): (ps: seq<Proc>)
    ensures |ps| == |js|
    ensures forall i :: 0 <= i < |js| ==> ps[i] == Fresh(js[i])
  {
    seq(|js|, i requires 0 <= i < |js| => Fresh(js[i]))
  }

  /** The positive part of `x`. */
  function Positive(x: int): nat {
    if x > 0 then x else 0
  }

  /** Number of `Run(n)` tokens in `t`. */
  function RunsOf(t: seq<Token>, n: string): nat {
    multiset(t)[Run(n)]
  }

  /** Number of `IO(n)` tokens in `t`. */
  function MarkersOf(t: seq<Token>, n: string): nat {
    multiset(t)[IO(n)]
  }

  /** Number of executed ticks recorded in `t`. */
  function TotalRuns(t: seq<Token>): nat {
    if t == [] then 0 else TotalRuns(t[..|t| - 1]) + (if t[|t| - 1].Run? then 1 else 0)
  }

  /** Number of I/O markers recorded in `t`. */
  function TotalMarkers(t: seq<Token>): nat {
    if t == [] then 0 else TotalMarkers(t[..|t| - 1]) + (if t[|t| - 1].IO? then 1 else 0)
  }

  lemma {:induction false} TotalsAppend(a: seq<Token>, b: seq<Token>)
    ensures TotalRuns(a + b) == TotalRuns(a) + TotalRuns(b)
    ensures TotalMarkers(a + b) == TotalMarkers(a) + TotalMarkers(b)
    decreases |b|
  {
    if b != [] {
      var b' := b[..|b| - 1];
      assert (a + b)[..|a + b| - 1] == a + b';
      TotalsAppend(a, b');
    } else {
      assert a + b == a;
    }
  }

  lemma CountsAppend(a: seq<Token>, b: seq<Token>, n: string)
    ensures RunsOf(a + b, n) == RunsOf(a, n) + RunsOf(b, n)
    ensures MarkersOf(a + b, n) == MarkersOf(a, n) + MarkersOf(b, n)
  {
    assert multiset(a + b) == multiset(a) + multiset(b);
  }

  /** The counts after appending one token. */
  lemma AppendToken(t: seq<Token>, x: Token, n: string)
    ensures TotalRuns(t + [x]) == TotalRuns(t) + (if x.Run? then 1 else 0)
    ensures TotalMarkers(t + [x]) == TotalMarkers(t) + (if x.IO? then 1 else 0)
    ensures RunsOf(t + [x], n) == RunsOf(t, n) + (if x == Run(n) then 1 else 0)
    ensures MarkersOf(t + [x], n) == MarkersOf(t, n) + (if x == IO(n) then 1 else 0)
  {
    assert (t + [x])[..|t|] == t;
    CountsAppend(t, [x], n);
  }

  /** Every token is either a tick or a marker. */
  lemma {:induction false} TotalsPartition(t: seq<Token>)
    ensures TotalRuns(t) + TotalMarkers(t) == |t|
    decreases |t|
  {
    if t != [] {
      TotalsPartition(t[..|t| - 1]);
    }
  }

  /** In a trace of one process, the totals are that process's counts. */
  lemma {:induction false} SingleName(t: seq<Token>, n: string)
    requires forall j :: 0 <= j < |t| ==> t[j].name == n
    ensures TotalRuns(t) == RunsOf(t, n) && TotalMarkers(t) == MarkersOf(t, n)
    decreases |t|
  {
    if t != [] {
      var m := |t| - 1;
      SingleName(t[..m], n);
      assert t == t[..m] + [t[m]];
      assert t[m] == Run(n) || t[m] == IO(n);
    }
  }

  /** The ticks a process with `r` units left is still owed, when a scheduler runs every process
      it holds at least `least` more ticks: 0 for the schedulers that skip an exhausted process,
      1 for the heap-based STCF, which runs every admitted process once before testing its time. */
  function Cost(r: int, least: nat): nat {
    least + Positive(r - least)
  }

  /** Total work still owed by `ps`. */
  function Work(ps: seq<Proc>, least: nat): nat {
    if ps == [] then 0 else Work(ps[..|ps| - 1], least) + Cost(ps[|ps| - 1].remaining, least)
  }

  /** Work still owed to processes called `n`. */
  function WorkOf(ps: seq<Proc>, n: string, least: nat): nat {
    if ps == [] then 0
    else WorkOf(ps[..|ps| - 1], n, least) + (if ps[|ps| - 1].name == n then Cost(ps[|ps| - 1].remaining, least) else 0)
  }

  lemma {:induction false} WorkAppend(a: seq<Proc>, b: seq<Proc>, least: nat)
    ensures Work(a + b, least) == Work(a, least) + Work(b, least)
    ensures forall n :: WorkOf(a + b, n, least) == WorkOf(a, n, least) + WorkOf(b, n, least)
    decreases |b|
  {
    if b != [] {
      var b' := b[..|b| - 1];
      assert (a + b)[..|a + b| - 1] == a + b';
      WorkAppend(a, b', least);
    } else {
      assert a + b == a;
    }
  }

  /** The work of a list with a process in front. */
  lemma WorkCons(x: Proc, t: seq<Proc>, n: string, least: nat)
    ensures Work([x] + t, least) == Cost(x.remaining, least) + Work(t, least)
    ensures WorkOf([x] + t, n, least) == (if x.name == n then Cost(x.remaining, least) else 0) + WorkOf(t, n, least)
  {
    WorkAppend([x], t, least);
    assert [x][..0] == [];
    assert WorkOf([x], n, least) == if x.name == n then Cost(x.remaining, least) else 0;
  }

  /** The work of a list with a process appended. */
  lemma WorkSnoc(t: seq<Proc>, x: Proc, n: string, least: nat)
    ensures Work(t + [x], least) == Work(t, least) + Cost(x.remaining, least)
    ensures WorkOf(t + [x], n, least) == WorkOf(t, n, least) + (if x.name == n then Cost(x.remaining, least) else 0)
  {
    assert (t + [x])[..|t|] == t;
  }

  /** Taking one process out of a list takes exactly its work out of the total. */
  lemma WorkRemove(b: seq<Proc>, i: nat, least: nat)
    requires i < |b|
    ensures Work(b, least) == Work(b[..i] + b[i + 1..], least) + Cost(b[i].remaining, least)
    ensures forall n :: WorkOf(b, n, least) == WorkOf(b[..i] + b[i + 1..], n, least) + (if b[i].name == n then Cost(b[i].remaining, least) else 0)
  {
    assert b == b[..i] + [b[i]] + b[i + 1..];
    WorkAppend(b[..i], [b[i]], least);
    WorkAppend(b[..i] + [b[i]], b[i + 1..], least);
    WorkAppend(b[..i], b[i + 1..], least);
  }

  lemma MultisetRemove(b: seq<Proc>, i: nat)
    requires i < |b|
    ensures multiset(b[..i] + b[i + 1..]) == multiset(b) - multiset{b[i]}
  {
    assert b == b[..i] + [b[i]] + b[i + 1..];
  }

  /** Work depends only on which processes are present, not on their order. */
  lemma {:induction false} WorkPermutation(a: seq<Proc>, b: seq<Proc>, least: nat)
    requires multiset(a) == multiset(b)
    ensures Work(a, least) == Work(b, least)
    ensures forall n :: WorkOf(a, n, least) == WorkOf(b, n, least)
    decreases |a|
  {
    if a != [] {
      var x := a[|a| - 1];
      var a' := a[..|a| - 1];
      assert a == a' + [x];
      assert multiset(a') == multiset(a) - multiset{x};
      assert x in multiset(b);
      var i :| 0 <= i < |b| && b[i] == x;
      MultisetRemove(b, i);
      WorkPermutation(a', b[..i] + b[i + 1..], least);
      WorkRemove(b, i, least);
    } else {
      assert |b| == |multiset(b)| == 0;
    }
  }

  /** Initial work of the input list. */
  lemma {:induction false} WorkFromJobs(js: seq<Job>, least: nat)
    ensures Work(FromJobs(js), least) == JobWork(js, least)
    ensures forall n :: WorkOf(FromJobs(js), n, least) == JobWorkOf(js, n, least)
    decreases |js|
  {
    if js != [] {
      var js' := js[..|js| - 1];
      assert FromJobs(js)[..|js| - 1] == FromJobs(js');
      WorkFromJobs(js', least);
    }
  }

  /** Total work of the input list. */
  function JobWork(js: seq<Job>, least: nat): nat {
    if js == [] then 0 else JobWork(js[..|js| - 1], least) + Cost(js[|js| - 1].duration, least)
  }

  /** Work of the input records called `n`. */
  function JobWorkOf(js: seq<Job>, n: string, least: nat): nat {
    if js == [] then 0
    else JobWorkOf(js[..|js| - 1], n, least) + (if js[|js| - 1].name == n then Cost(js[|js| - 1].duration, least) else 0)
  }

  /** The input list is sorted by arrival time (what the caller's stable sort establishes). */
  predicate ArrivalSorted(ps: seq<Proc>) {
    forall i, j :: 0 <= i < j < |ps| ==> ps[i].arrival <= ps[j].arrival
  }

  /** The arrival gate of the two STCF variants: how many processes are popped from the front
      of the pending list while the front one has arrived by `time`. */
  function AdmitCount(pending: seq<Proc>, time: int): (k: nat)
    ensures k <= |pending|
    ensures forall i :: 0 <= i < k ==> pending[i].arrival <= time
    ensures k < |pending| ==> pending[k].arrival > time
    ensures ArrivalSorted(pending) ==> forall i :: k <= i < |pending| ==> pending[i].arrival > time
    decreases |pending|
  {
    if pending == [] || pending[0].arrival > time then 0
    else 1 + AdmitCount(pending[1..], time)
  }

  /** Clock ticks until the front pending process arrives, when it has not arrived yet. */
  function Gap(pending: seq<Proc>, time: int): nat {
    if pending == [] || pending[0].arrival <= time then 0 else pending[0].arrival - time
  }

  /** The I/O test of both STCF variants after one executed tick of `p`: work is left and the
      counter of ticks since the last request reaches the frequency. */
  predicate IOFires(p: Proc) {
    p.remaining - 1 > 0 && p.sinceIO + 1 == p.ioFrequency
  }

  /** `p` after one executed tick under either STCF variant: one unit less work, and the counter
      advanced, or reset when the tick ends in an I/O request. */
  function Advance(p: Proc): Proc {
    p.(remaining := p.remaining - 1, sinceIO := if IOFires(p) then 0 else p.sinceIO + 1)
  }
}

=== FILE: fcfs.dfy ===
/** First-Come-First-Served: each process runs its whole duration, in list order.
    I/O markers are interleaved with the ticks but never cost the CPU. */
module Fcfs {
  import opened Common

  /** The marker rule: after the k-th executed tick of `p` a `!name` marker follows exactly when
      I/O is enabled, k is a multiple of the I/O frequency, and k is not the final tick. */
  predicate MarkerAfter(p: Job, k: int) {
    p.ioFrequency > 0 && k % p.ioFrequency == 0 && k < p.duration
  }

  /** The tokens produced by the k-th executed tick of `p`. */
  function Tick(p: Job, k: int): seq<Token> {
    [Run(p.name)] + (if MarkerAfter(p, k) then [IO(p.name)] else [])
  }

  /** The tokens of the first k executed ticks of `p`. */
  function Ticks(p: Job, k: int): seq<Token>
    decreases k
  {
    if k <= 0 then [] else Ticks(p, k - 1) + Tick(p, k)
  }

  /** The uninterrupted block of one process: all of its ticks with their markers. */
  function Block(p: Job): seq<Token> {
    Ticks(p, p.duration)
  }

  /** Reference trace: one block per process, concatenated in list order. */
  function Blocks(ps: seq<Job>): seq<Token> {
    if ps == [] then [] else Blocks(ps[..|ps| - 1]) + Block(ps[|ps| - 1])
  }

  /** The clock when a process is taken up: it waits for the process to arrive, if it must. */
  function StartAt(clock: int, arrival: int): (t: int)
    ensures t >= clock && t >= arrival && (t == clock || t == arrival)
  {
    if clock < arrival then arrival else clock
  }

  /** The scheduler loop of the source. The clock only decides when each block starts:
      `startTimes[i]` is the clock value at which `ps[i]` begins, the later of its arrival and the
      end of the previous block (time 0 for the first). */
  method FcfsScheduler(ps: seq<Job>) returns (order: seq<Token>, startTimes: seq<int>)
    ensures order == Blocks(ps)
    ensures |startTimes| == |ps|
    ensures forall i :: 0 <= i < |ps| ==> startTimes[i] >= ps[i].arrival && startTimes[i] >= 0
    ensures forall i :: 0 < i < |ps| ==> startTimes[i] >= startTimes[i - 1] + Positive(ps[i - 1].duration)
    ensures |ps| > 0 ==> startTimes[0] == StartAt(0, ps[0].arrival)
    ensures forall i :: 0 < i < |ps| ==>
      startTimes[i] == StartAt(startTimes[i - 1] + Positive(ps[i - 1].duration), ps[i].arrival)
  {
    var currentTime := 0;
    order := [];
    startTimes := [];
    var i := 0;
    while i < |ps|
      invariant 0 <= i <= |ps|
      invariant order == Blocks(ps[..i])
      invariant |startTimes| == i
      invariant forall j :: 0 <= j < i ==> startTimes[j] >= ps[j].arrival && startTimes[j] >= 0
      invariant i > 0 ==> currentTime == startTimes[i - 1] + Positive(ps[i - 1].duration)
      invariant i > 0 ==> startTimes[0] == StartAt(0, ps[0].arrival)
      invariant forall j :: 0 < j < i ==>
        startTimes[j] == StartAt(startTimes[j - 1] + Positive(ps[j - 1].duration), ps[j].arrival)
      invariant i == 0 ==> currentTime == 0
      invariant currentTime >= 0
    {
      currentTime := StartAt(currentTime, ps[i].arrival);
      startTimes := startTimes + [currentTime];
      var block;
      block, currentTime := RunToCompletion(ps[i], currentTime);
      order := order + block;
      assert ps[..i + 1][..i] == ps[..i];
      i := i + 1;
    }
    assert ps[..i] == ps;
  }

  /** The inner loop of the source: run `process` from clock `start` until its remaining
      duration reaches 0, emitting a marker after every `ioFrequency`-th tick but the last. */
  method RunToCompletion(process: Job, start: int) returns (block: seq<Token>, finish: int)
    ensures block == Block(process)
    ensures finish == start + Positive(process.duration)
  {
    block := [];
    finish := start;
    var remaining := process.duration;
    while remaining > 0
      invariant remaining <= process.duration
      invariant remaining < process.duration ==> remaining >= 0
      invariant block == Ticks(process, process.duration - remaining)
      invariant finish == start + (process.duration - remaining)
    {
      block := block + [Run(process.name)];
      finish := finish + 1;
      remaining := remaining - 1;
      if process.ioFrequency > 0 && (process.duration - remaining) % process.ioFrequency == 0 && remaining > 0 {
        block := block + [IO(process.name)];
      }
    }
  }

  /** Every token of a block belongs to its process. */
  lemma {:induction false} TicksNames(p: Job, k: int)
    ensures forall j :: 0 <= j < |Ticks(p, k)| ==> Ticks(p, k)[j].name == p.name
    decreases k
  {
    if k > 0 {
      TicksNames(p, k - 1);
    }
  }

  /** A block holds exactly `duration` ticks, all of its own process. */
  lemma {:induction false} TicksRuns(p: Job, k: int, n: string)
    ensures TotalRuns(Ticks(p, k)) == Positive(k)
    ensures RunsOf(Ticks(p, k), n) == (if n == p.name then Positive(k) else 0)
    decreases k
  {
    if k > 0 {
      TicksRuns(p, k - 1, n);
      TickContents(p, k, n);
      TotalsAppend(Ticks(p, k - 1), Tick(p, k));
      CountsAppend(Ticks(p, k - 1), Tick(p, k), n);
    }
  }

  /** One tick is one `Run` token of its process, plus possibly its marker. */
  lemma TickContents(p: Job, k: int, n: string)
    ensures TotalRuns(Tick(p, k)) == 1
    ensures TotalMarkers(Tick(p, k)) == (if MarkerAfter(p, k) then 1 else 0)
    ensures RunsOf(Tick(p, k), n) == (if n == p.name then 1 else 0)
    ensures MarkersOf(Tick(p, k), n) == (if n == p.name && MarkerAfter(p, k) then 1 else 0)
  {
    if MarkerAfter(p, k) {
      assert Tick(p, k) == [Run(p.name), IO(p.name)];
      assert Tick(p, k)[..1] == [Run(p.name)];
    } else {
      assert Tick(p, k) == [Run(p.name)];
    }
  }

  lemma DivUnique(x: int, f: int, q: int, r: int)
    requires f > 0 && 0 <= r < f && x == q * f + r
    ensures x / f == q && x % f == r
  {
    var q' := x / f;
    var r' := x % f;
    assert x == q' * f + r';
    assert (q - q') * f == r' - r;
    if q > q' {
      MulAtLeast(q - q', f);
    } else if q < q' {
      MulAtLeast(q' - q, f);
    }
  }

  lemma {:induction false} MulAtLeast(d: int, f: int)
    requires d >= 1 && f > 0
    ensures d * f >= f
    decreases d
  {
    if d > 1 {
      MulAtLeast(d - 1, f);
      assert d * f == (d - 1) * f + f;
    }
  }

  /** One more tick adds one to the quotient exactly when the new count is a multiple of f. */
  lemma DivStep(k: int, f: int)
    requires k >= 1 && f > 0
    ensures k / f == (k - 1) / f + (if k % f == 0 then 1 else 0)
  {
    var q := (k - 1) / f;
    var r := (k - 1) % f;
    if r + 1 < f {
      DivUnique(k, f, q, r + 1);
    } else {
      DivUnique(k, f, q + 1, 0);
    }
  }

  /** How many of 1..k are multiples of f. */
  function Multiples(k: int, f: int): nat
    decreases k
  {
    if k <= 0 then 0 else Multiples(k - 1, f) + (if f > 0 && k % f == 0 then 1 else 0)
  }

  /** Counting multiples is integer division. */
  lemma {:induction false} MultiplesDiv(k: int, f: int)
    requires k >= 0 && f > 0
    ensures Multiples(k, f) == k / f
    decreases k
  {
    if k > 0 {
      MultiplesDiv(k - 1, f);
      DivStep(k, f);
    } else {
      DivUnique(0, f, 0, 0);
    }
  }

  /** Markers among the first k ticks: one after every multiple of the frequency, except after the final tick. */
  lemma {:induction false} TicksMarkers(p: Job, k: int)
    requires 0 <= k <= p.duration
    ensures MarkersOf(Ticks(p, k), p.name) == Multiples(if k < p.duration then k else k - 1, p.ioFrequency)
    decreases k
  {
    if k > 0 {
      TicksMarkers(p, k - 1);
      MarkersStep(p, k);
      var prev := MarkersOf(Ticks(p, k - 1), p.name);
      assert prev == Multiples(k - 1, p.ioFrequency);
      if k < p.duration {
        assert Multiples(k, p.ioFrequency) == prev + (if MarkerAfter(p, k) then 1 else 0);
      } else {
        assert !MarkerAfter(p, k);
      }
    }
  }

  lemma MarkersStep(p: Job, k: int)
    requires k > 0
    ensures MarkersOf(Ticks(p, k), p.name) == MarkersOf(Ticks(p, k - 1), p.name) + (if MarkerAfter(p, k) then 1 else 0)
  {
    TickContents(p, k, p.name);
    CountsAppend(Ticks(p, k - 1), Tick(p, k), p.name);
  }

  /** With I/O disabled a block carries no marker at all. */
  lemma {:induction false} TicksNoMarkers(p: Job, k: int)
    requires p.ioFrequency <= 0
    ensures TotalMarkers(Ticks(p, k)) == 0
    decreases k
  {
    if k > 0 {
      TicksNoMarkers(p, k - 1);
      TickContents(p, k, p.name);
      TotalsAppend(Ticks(p, k - 1), Tick(p, k));
    }
  }

  /** Marker count of one block: `(duration - 1) / ioFrequency` when I/O is enabled, none otherwise. */
  lemma BlockMarkers(p: Job)
    ensures p.ioFrequency <= 0 ==> TotalMarkers(Block(p)) == 0
    ensures p.ioFrequency > 0 && p.duration >= 1 ==> MarkersOf(Block(p), p.name) == (p.duration - 1) / p.ioFrequency
    ensures p.duration <= 0 ==> TotalMarkers(Block(p)) == 0
  {
    if p.ioFrequency <= 0 {
      TicksNoMarkers(p, p.duration);
    } else if p.duration >= 1 {
      TicksMarkers(p, p.duration);
      MultiplesDiv(p.duration - 1, p.ioFrequency);
    }
  }

  /** A block holds one token per tick plus its markers: for a positive duration, `duration`
      tokens with I/O disabled and `duration + (duration - 1) / ioFrequency` with it; nothing at
      all for a duration of 0 or below. */
  lemma BlockLength(p: Job)
    ensures |Block(p)| == Positive(p.duration) + TotalMarkers(Block(p))
    ensures p.ioFrequency <= 0 ==> |Block(p)| == Positive(p.duration)
    ensures p.ioFrequency > 0 && p.duration >= 1 ==> |Block(p)| == p.duration + (p.duration - 1) / p.ioFrequency
    ensures p.duration <= 0 ==> Block(p) == []
  {
    TicksRuns(p, p.duration, p.name);
    TotalsPartition(Block(p));
    BlockMarkers(p);
    TicksNames(p, p.duration);
    SingleName(Block(p), p.name);
  }

  /** No marker follows the final tick: a non-empty block ends with a `Run` token. */
  lemma BlockEndsWithRun(p: Job)
    requires p.duration >= 1
    ensures |Block(p)| > 0 && Block(p)[|Block(p)| - 1] == Run(p.name)
  {
  }

  /** A shorter run of ticks is a prefix of a longer one. */
  lemma {:induction false} TicksPrefix(p: Job, k: int, m: int)
    requires 0 <= k <= m
    ensures |Ticks(p, k)| <= |Ticks(p, m)| && Ticks(p, m)[..|Ticks(p, k)|] == Ticks(p, k)
    decreases m
  {
    if k < m {
      TicksPrefix(p, k, m - 1);
      assert Ticks(p, m) == Ticks(p, m - 1) + Tick(p, m);
    }
  }

  /** Ticks 1..k-1 followed by the k-th tick's `Run` token open every longer run of ticks. */
  lemma TicksOpening(p: Job, k: int, m: int)
    requires 1 <= k <= m
    ensures |Ticks(p, k - 1)| < |Ticks(p, m)|
    ensures Ticks(p, m)[..|Ticks(p, k - 1)| + 1] == Ticks(p, k - 1) + [Run(p.name)]
  {
    var a := Ticks(p, k - 1);
    var bk := Ticks(p, k);
    assert bk == a + Tick(p, k);
    TicksPrefix(p, k, m);
    assert Ticks(p, m)[..|a| + 1] == bk[..|a| + 1];
  }

  /** The k-th executed tick of a block sits at position `|Ticks(p, k - 1)|`. */
  lemma KthTick(p: Job, k: int)
    requires 1 <= k <= p.duration
    ensures var j := |Ticks(p, k - 1)|;
      && j < |Block(p)| && Block(p)[j] == Run(p.name)
      && RunsOf(Block(p)[..j + 1], p.name) == k
  {
    var a := Ticks(p, k - 1);
    var b := Block(p);
    var j := |a|;
    TicksOpening(p, k, p.duration);
    assert b[j] == b[..j + 1][j];
    TicksRuns(p, k - 1, p.name);
    assert multiset(b[..j + 1]) == multiset(a) + multiset{Run(p.name)};
  }

  /** The token right after the k-th executed tick is the `!name` marker exactly when
      `MarkerAfter(p, k)`; in particular none follows the final tick. */
  lemma MarkerPosition(p: Job, k: int)
    requires 1 <= k <= p.duration
    ensures var j := |Ticks(p, k - 1)|;
      && j < |Block(p)| && Block(p)[j] == Run(p.name)
      && RunsOf(Block(p)[..j + 1], p.name) == k
      && (j + 1 < |Block(p)| && Block(p)[j + 1] == IO(p.name) <==> MarkerAfter(p, k))
  {
    KthTick(p, k);
    var j := |Ticks(p, k - 1)|;
    var b := Block(p);
    var bk := Ticks(p, k);
    assert bk == Ticks(p, k - 1) + Tick(p, k);
    if MarkerAfter(p, k) {
      TicksPrefix(p, k, p.duration);
      assert b[j + 1] == b[..|bk|][j + 1] == bk[j + 1] == IO(p.name);
    } else if k < p.duration {
      TicksOpening(p, k + 1, p.duration);
      assert |bk| == j + 1;
      assert b[j + 1] == b[..j + 2][j + 1] == Run(p.name);
    } else {
      assert |b| == j + 1;
    }
  }

  /** Work conservation: each process's ticks in the trace equal its duration, summed per name. */
  lemma {:induction false} BlocksRuns(ps: seq<Job>)
    ensures TotalRuns(Blocks(ps)) == JobWork(ps, 0)
    ensures forall n :: RunsOf(Blocks(ps), n) == JobWorkOf(ps, n, 0)
    decreases |ps|
  {
    if ps != [] {
      var ps' := ps[..|ps| - 1];
      var p := ps[|ps| - 1];
      BlocksRuns(ps');
      TicksRuns(p, p.duration, p.name);
      TotalsAppend(Blocks(ps'), Block(p));
      forall n ensures RunsOf(Blocks(ps), n) == JobWorkOf(ps, n, 0) {
        TicksRuns(p, p.duration, n);
        assert multiset(Blocks(ps)) == multiset(Blocks(ps')) + multiset(Block(p));
        assert RunsOf(Blocks(ps'), n) == JobWorkOf(ps', n, 0);
        assert RunsOf(Block(p), n) == (if n == p.name then Positive(p.duration) else 0);
      }
    }
  }

  /** Non-preemption: the block of `ps[i]` appears whole and contiguous in the trace, right after
      the blocks of the processes before it, and nothing of another process is inside it. */
  lemma {:induction false} NonPreemptive(ps: seq<Job>, i: nat)
    requires i < |ps|
    ensures var lo := |Blocks(ps[..i])|;
      && lo + |Block(ps[i])| <= |Blocks(ps)|
      && Blocks(ps)[..lo] == Blocks(ps[..i])
      && Blocks(ps)[lo..lo + |Block(ps[i])|] == Block(ps[i])
      && forall j :: lo <= j < lo + |Block(ps[i])| ==> Blocks(ps)[j].name == ps[i].name
    decreases |ps|
  {
    var lo := |Blocks(ps[..i])|;
    TicksNames(ps[i], ps[i].duration);
    if i == |ps| - 1 {
      assert ps[..|ps| - 1] == ps[..i];
    } else {
      var ps' := ps[..|ps| - 1];
      assert ps'[..i] == ps[..i];
      NonPreemptive(ps', i);
      assert Blocks(ps) == Blocks(ps') + Block(ps[|ps| - 1]);
    }
  }
  /** The ticks of a process do not depend on its arrival time. */
  lemma {:induction false} TicksIgnoreArrival(p: Job, q: Job, k: int)
    requires q == p.(arrival := q.arrival)
    ensures Ticks(p, k) == Ticks(q, k)
    decreases k
  {
    if k > 0 {
      TicksIgnoreArrival(p, q, k - 1);
    }
  }

  /** Arrival times only move the clock: two lists that differ in nothing but arrival times
      produce the same trace. */
  lemma {:induction false} TraceIgnoresArrival(ps: seq<Job>, qs: seq<Job>)
    requires |ps| == |qs|
    requires forall i :: 0 <= i < |ps| ==> qs[i] == ps[i].(arrival := qs[i].arrival)
    ensures Blocks(ps) == Blocks(qs)
    decreases |ps|
  {
    if ps != [] {
      var m := |ps| - 1;
      TraceIgnoresArrival(ps[..m], qs[..m]);
      TicksIgnoreArrival(ps[m], qs[m], ps[m].duration);
    }
  }
}

=== FILE: mlfq.dfy ===
/** The multi-level feedback queue scheduler: four FIFO tiers, 3 the highest, with quanta
    {3: 1, 2: 2, 1: 3, 0: 4}. Each turn takes the head of the highest non-empty tier and runs it
    until its quantum is used up, its work is done, or it requests I/O. I/O sends it to the tail
    of tier 3; an exhausted quantum with work left demotes it one tier; a finished process is
    dropped. After every turn the boost scan of tier 0 runs. */
module Mlfq {
  import opened Common
  import opened MlfqBoost

  const QuantumMap: map<int, int> := map[3 := 1, 2 := 2, 1 := 3, 0 := 4]

  /** How a pending process is admitted at the start of an iteration: `Exact` is the source's
      test, arrival equal to the clock; `ByNow` admits every process that has arrived by then. */
  datatype Gate = Exact | ByNow

  predicate Arrived(g: Gate, p: Proc, time: int) {
    match g
    case Exact => p.arrival == time
    case ByNow => p.arrival <= time
  }

  /** `tiers[k]` is `priority_queues[k]`. */
  datatype State = State(pending: seq<Proc>, tiers: seq<seq<Proc>>, time: int, trace: seq<Token>)

  ghost predicate InTier(t: seq<Proc>, k: int) {
    forall i :: 0 <= i < |t| ==> t[i].priority == k
  }

  /** Every process sits in the tier of its priority, and the pending ones have the initial
      priority 3; hence every priority is one of 0, 1, 2, 3. */
  ghost predicate WellFormed(s: State) {
    && |s.tiers| == 4
    && InTier(s.tiers[0], 0) && InTier(s.tiers[1], 1) && InTier(s.tiers[2], 2) && InTier(s.tiers[3], 3)
    && InTier(s.pending, 3)
  }

  // ---------------------------------------------------------------------------------------
  // Admission
  // ---------------------------------------------------------------------------------------

  /** The processes admitted at `time`, in list order. */
  function Arrivals(ps: seq<Proc>, time: int, g: Gate): (r: seq<Proc>)
    ensures forall i :: 0 <= i < |r| ==> Arrived(g, r[i], time) && r[i] in ps
  {
    if ps == [] then []
    else
      assert ps == [ps[0]] + ps[1..];
      (if Arrived(g, ps[0], time) then [ps[0]] else []) + Arrivals(ps[1..], time, g)
  }

  /** The processes left pending at `time`, in list order. */
  function Waiting(ps: seq<Proc>, time: int, g: Gate): (r: seq<Proc>)
    ensures forall i :: 0 <= i < |r| ==> !Arrived(g, r[i], time) && r[i] in ps
  {
    if ps == [] then []
    else
      assert ps == [ps[0]] + ps[1..];
      (if Arrived(g, ps[0], time) then [] else [ps[0]]) + Waiting(ps[1..], time, g)
  }

  /** Admission splits the pending list without losing, duplicating or changing a process. */
  lemma {:induction false} AdmitPartition(ps: seq<Proc>, time: int, g: Gate)
    ensures multiset(Arrivals(ps, time, g)) + multiset(Waiting(ps, time, g)) == multiset(ps)
    decreases |ps|
  {
    if ps != [] {
      var h, t := [ps[0]], ps[1..];
      AdmitPartition(t, time, g);
      assert ps == h + t;
      assert multiset(ps) == multiset(h) + multiset(t);
      if Arrived(g, ps[0], time) {
        assert Arrivals(ps, time, g) == h + Arrivals(t, time, g);
        assert multiset(Arrivals(ps, time, g)) == multiset(h) + multiset(Arrivals(t, time, g));
      } else {
        assert Waiting(ps, time, g) == h + Waiting(t, time, g);
        assert multiset(Waiting(ps, time, g)) == multiset(h) + multiset(Waiting(t, time, g));
      }
    }
  }

  lemma AdmitSplits(ps: seq<Proc>, time: int, g: Gate)
    ensures Work(Arrivals(ps, time, g), 0) + Work(Waiting(ps, time, g), 0) == Work(ps, 0)
    ensures forall n :: WorkOf(Arrivals(ps, time, g), n, 0) + WorkOf(Waiting(ps, time, g), n, 0) == WorkOf(ps, n, 0)
  {
    var a := Arrivals(ps, time, g);
    var w := Waiting(ps, time, g);
    AdmitPartition(ps, time, g);
    WorkAppend(a, w, 0);
    WorkPermutation(a + w, ps, 0);
  }

  /** Start of an iteration: the arrivals are appended, in list order, to the tier of their
      priority, which for a pending process is 3. */
  function Admit(s: State, g: Gate): (r: State)
    requires WellFormed(s)
    ensures WellFormed(r)
    ensures r.time == s.time && r.trace == s.trace
  {
    var a := Arrivals(s.pending, s.time, g);
    forall i | 0 <= i < |a|
      ensures a[i].priority == 3
    {
      assert a[i] in s.pending;
    }
    var w := Waiting(s.pending, s.time, g);
    forall i | 0 <= i < |w|
      ensures w[i].priority == 3
    {
      assert w[i] in s.pending;
    }
    State(w, s.tiers[3 := s.tiers[3] + a], s.time, s.trace)
  }

  // ---------------------------------------------------------------------------------------
  // Selection
  // ---------------------------------------------------------------------------------------

  /** The tier the next turn takes its process from: the highest non-empty one, or -1. */
  function Top(tiers: seq<seq<Proc>>): (k: int)
    requires |tiers| == 4
    ensures -1 <= k < 4
    ensures k == -1 <==> forall j :: 0 <= j < 4 ==> tiers[j] == []
    ensures k >= 0 ==> tiers[k] != [] && forall j :: k < j < 4 ==> tiers[j] == []
  {
    if tiers[3] != [] then 3
    else if tiers[2] != [] then 2
    else if tiers[1] != [] then 1
    else if tiers[0] != [] then 0
    else -1
  }

  // ---------------------------------------------------------------------------------------
  // One turn
  // ---------------------------------------------------------------------------------------

  /** The process after its run, how many ticks it ran and whether the run ended in I/O. */
  datatype Burst = Burst(p: Proc, ticks: nat, io: bool)

  /** The inner loop `while quantum > 0 and remaining > 0`: one tick at a time, stopping early
      when the counter reaches the I/O interval, in which case the process gets priority 3. */
  function RunBurst(p: Proc, quantum: int): Burst
    decreases Positive(quantum)
  {
    if quantum > 0 && p.remaining > 0 then
      var p1 := p.(remaining := p.remaining - 1, sinceIO := p.sinceIO + 1);
      if p1.sinceIO == p1.ioFrequency then Burst(p1.(sinceIO := 0, priority := 3), 1, true)
      else
        var b := RunBurst(p1, quantum - 1);
        Burst(b.p, b.ticks + 1, b.io)
    else Burst(p, 0, false)
  }

  function Min(a: int, b: int): int {
    if a <= b then a else b
  }

  /** The burst in closed form: with `d` the ticks until the counter reaches the interval and
      `cap` the ticks the quantum and the work allow, the run ends in I/O exactly when
      `1 <= d <= cap`, after `d` ticks, and otherwise runs `cap` ticks. Nothing but the run
      fields changes, and the I/O test ignores whether work is left. */
  lemma {:induction false} BurstClosedForm(p: Proc, quantum: int)
    ensures var b := RunBurst(p, quantum);
      var d := p.ioFrequency - p.sinceIO;
      var cap := Min(Positive(quantum), Positive(p.remaining));
      && (b.io <==> 1 <= d <= cap)
      && b.ticks == (if b.io then d else cap)
      && b.p.remaining == p.remaining - b.ticks
      && b.p.sinceIO == (if b.io then 0 else p.sinceIO + b.ticks)
      && b.p.priority == (if b.io then 3 else p.priority)
      && b.p == p.(remaining := b.p.remaining, sinceIO := b.p.sinceIO, priority := b.p.priority)
    decreases Positive(quantum)
  {
    if quantum > 0 && p.remaining > 0 {
      var p1 := p.(remaining := p.remaining - 1, sinceIO := p.sinceIO + 1);
      if p1.sinceIO != p1.ioFrequency {
        BurstClosedForm(p1, quantum - 1);
      }
    }
  }

  /** One turn never runs longer than the quantum or the work left, and never drives the
      remaining time below zero. */
  lemma BurstBounds(p: Proc, quantum: int)
    ensures RunBurst(p, quantum).ticks <= Positive(quantum)
    ensures RunBurst(p, quantum).ticks <= Positive(p.remaining)
    ensures p.remaining >= 0 ==> RunBurst(p, quantum).p.remaining >= 0
    ensures quantum > 0 && p.remaining > 0 ==> RunBurst(p, quantum).ticks >= 1
  {
    BurstClosedForm(p, quantum);
  }

  /** `reduce_priority` followed by the credit update: one tier down, not below 0; on reaching
      tier 0 the credit grows by the tier-0 quantum, otherwise it is cleared. */
  function Demote(p: Proc): (q: Proc)
    requires 0 <= p.priority < 4
    ensures 0 <= q.priority < 4
    ensures q.priority == (if p.priority == 0 then 0 else p.priority - 1)
    ensures q.wait == (if q.priority == 0 then p.wait + 4 else 0)
    ensures q == p.(priority := q.priority, wait := q.wait)
  {
    var r := if p.priority > 0 then p.(priority := p.priority - 1) else p;
    if r.priority == 0 then r.(wait := r.wait + QuantumMap[0]) else r.(wait := 0)
  }

  /** `count` tokens `Run(name)`. */
  function Runs(name: string, count: nat): (t: seq<Token>)
    ensures |t| == count
    ensures forall i :: 0 <= i < count ==> t[i] == Run(name)
  {
    seq(count, i => Run(name))
  }

  lemma {:induction false} RunsCount(name: string, count: nat, n: string)
    ensures TotalRuns(Runs(name, count)) == count
    ensures RunsOf(Runs(name, count), n) == (if n == name then count else 0)
    ensures TotalMarkers(Runs(name, count)) == 0 && MarkersOf(Runs(name, count), n) == 0
    decreases count
  {
    if count > 0 {
      assert Runs(name, count) == Runs(name, count - 1) + [Run(name)];
      RunsCount(name, count - 1, n);
      AppendToken(Runs(name, count - 1), Run(name), n);
    }
  }

  /** Where the process goes after its burst: tier 3 after I/O, one tier down after an exhausted
      quantum with work left, nowhere when its work is done. */
  function Requeue(tiers: seq<seq<Proc>>, b: Burst): (r: seq<seq<Proc>>)
    requires |tiers| == 4 && 0 <= b.p.priority < 4
    ensures |r| == 4
  {
    if b.io then tiers[3 := tiers[3] + [b.p]]
    else if b.p.remaining > 0 then
      var d := Demote(b.p);
      tiers[d.priority := tiers[d.priority] + [d]]
    else tiers
  }

  /** The tokens of one turn: one `Run` per tick, then the marker when the turn ended in I/O. */
  function TurnTokens(name: string, b: Burst): seq<Token> {
    Runs(name, b.ticks) + (if b.io then [IO(name)] else [])
  }

  /** The head of tier `k` after admission, and its burst with the quantum of its tier. */
  function Head(s: State, k: int): Proc
    requires |s.tiers| == 4 && 0 <= k < 4 && s.tiers[k] != []
  {
    s.tiers[k][0]
  }

  function HeadBurst(s: State, k: int): Burst
    requires WellFormed(s) && 0 <= k < 4 && s.tiers[k] != []
  {
    var p := Head(s, k);
    assert p.priority == k;
    RunBurst(p, QuantumMap[p.priority])
  }

  /** One turn of the process at the head of tier `k`, followed by the boost scan. */
  function Turn(s: State, k: int): (r: State)
    requires WellFormed(s) && 0 <= k < 4 && s.tiers[k] != []
    ensures WellFormed(r)
  {
    var p := Head(s, k);
    var b := HeadBurst(s, k);
    BurstClosedForm(p, QuantumMap[p.priority]);
    var t1 := s.tiers[k := s.tiers[k][1..]];
    var t2 := Requeue(t1, b);
    RequeueKeepsTiers(s, k);
    var boost := Boost(t2[0], t2[3]);
    BoostKeepsTiers(t2);
    State(s.pending, t2[0 := boost.0][3 := boost.1], s.time + b.ticks, s.trace + TurnTokens(p.name, b))
  }

  lemma RequeueKeepsTiers(s: State, k: int)
    requires WellFormed(s) && 0 <= k < 4 && s.tiers[k] != []
    ensures var t2 := Requeue(s.tiers[k := s.tiers[k][1..]], HeadBurst(s, k));
      InTier(t2[0], 0) && InTier(t2[1], 1) && InTier(t2[2], 2) && InTier(t2[3], 3)
  {
    var p := Head(s, k);
    BurstClosedForm(p, QuantumMap[p.priority]);
  }

  lemma BoostKeepsTiers(t: seq<seq<Proc>>)
    requires |t| == 4 && InTier(t[0], 0) && InTier(t[1], 1) && InTier(t[2], 2) && InTier(t[3], 3)
    ensures var b := Boost(t[0], t[3]);
      InTier(b.0, 0) && InTier(b.1, 3)
  {
    var b := Boost(t[0], t[3]);
    SweepSplits(t[0], true, "");
    forall i | 0 <= i < |b.0|
      ensures b.0[i].priority == 0
    {
      assert b.0[i] in multiset(t[0]);
    }
    forall i | 0 <= i < |b.1|
      ensures b.1[i].priority == 3
    {
      if i >= |t[3]| {
        assert b.1[i] == Sweep(t[0], true).1[i - |t[3]|];
      }
    }
  }

  /** One iteration of `while processes or any(priority_queues.values())`: admission, then a
      turn of the selected process, or, with every tier empty, one idle tick. */
  function Step(s: State, g: Gate): (r: State)
    requires WellFormed(s)
    ensures WellFormed(r)
  {
    var a := Admit(s, g);
    var k := Top(a.tiers);
    if k < 0 then a.(time := a.time + 1) else Turn(a, k)
  }

  // ---------------------------------------------------------------------------------------
  // Work conservation
  // ---------------------------------------------------------------------------------------

  function TierWork(ts: seq<seq<Proc>>): nat
    requires |ts| == 4
  {
    Work(ts[0], 0) + Work(ts[1], 0) + Work(ts[2], 0) + Work(ts[3], 0)
  }

  function TierWorkOf(ts: seq<seq<Proc>>, n: string): nat
    requires |ts| == 4
  {
    WorkOf(ts[0], n, 0) + WorkOf(ts[1], n, 0) + WorkOf(ts[2], n, 0) + WorkOf(ts[3], n, 0)
  }

  /** Work still owed: pending and queued processes. */
  function Owed(s: State): nat
    requires |s.tiers| == 4
  {
    Work(s.pending, 0) + TierWork(s.tiers)
  }

  function OwedOf(s: State, n: string): nat
    requires |s.tiers| == 4
  {
    WorkOf(s.pending, n, 0) + TierWorkOf(s.tiers, n)
  }

  lemma AdmitConserves(s: State, g: Gate, n: string)
    requires WellFormed(s)
    ensures Owed(Admit(s, g)) == Owed(s)
    ensures OwedOf(Admit(s, g), n) == OwedOf(s, n)
  {
    var a := Arrivals(s.pending, s.time, g);
    AdmitSplits(s.pending, s.time, g);
    WorkAppend(s.tiers[3], a, 0);
  }

  /** Putting the process back adds exactly the work it still has. */
  lemma RequeueWork(t: seq<seq<Proc>>, b: Burst, n: string)
    requires |t| == 4 && 0 <= b.p.priority < 4
    ensures TierWork(Requeue(t, b)) == TierWork(t) + Positive(b.p.remaining)
    ensures TierWorkOf(Requeue(t, b), n) == TierWorkOf(t, n) + (if b.p.name == n then Positive(b.p.remaining) else 0)
  {
    if b.io {
      WorkSnoc(t[3], b.p, n, 0);
    } else if b.p.remaining > 0 {
      var d := Demote(b.p);
      WorkSnoc(t[d.priority], d, n, 0);
    }
  }

  /** The boost scan moves processes between tiers 0 and 3 without changing their work. */
  lemma BoostWork(t: seq<seq<Proc>>, n: string)
    requires |t| == 4
    ensures var b := Boost(t[0], t[3]);
      && TierWork(t[0 := b.0][3 := b.1]) == TierWork(t)
      && TierWorkOf(t[0 := b.0][3 := b.1], n) == TierWorkOf(t, n)
  {
    SweepSplits(t[0], true, n);
    WorkAppend(t[3], Sweep(t[0], true).1, 0);
  }

  /** The tokens of a turn hold one `Run` per tick, all of the running process. */
  lemma TurnTokensCount(name: string, b: Burst, n: string)
    ensures TotalRuns(TurnTokens(name, b)) == b.ticks
    ensures RunsOf(TurnTokens(name, b), n) == (if n == name then b.ticks else 0)
  {
    var io := if b.io then [IO(name)] else [];
    RunsCount(name, b.ticks, n);
    TotalsAppend(Runs(name, b.ticks), io);
    CountsAppend(Runs(name, b.ticks), io, n);
  }

  /** Work conservation of one turn: every executed tick is one `Run` token and one unit less of
      owed work, per process name. */
  lemma {:induction false} TurnConserves(s: State, k: int, n: string)
    requires WellFormed(s) && 0 <= k < 4 && s.tiers[k] != []
    ensures TotalRuns(Turn(s, k).trace) + Owed(Turn(s, k)) == TotalRuns(s.trace) + Owed(s)
    ensures RunsOf(Turn(s, k).trace, n) + OwedOf(Turn(s, k), n) == RunsOf(s.trace, n) + OwedOf(s, n)
  {
    var p := Head(s, k);
    var b := HeadBurst(s, k);
    BurstClosedForm(p, QuantumMap[p.priority]);
    assert Positive(p.remaining) == b.ticks + Positive(b.p.remaining);
    assert s.tiers[k] == [p] + s.tiers[k][1..];
    WorkCons(p, s.tiers[k][1..], n, 0);
    var t1 := s.tiers[k := s.tiers[k][1..]];
    RequeueWork(t1, b, n);
    BoostWork(Requeue(t1, b), n);
    TurnTokensCount(p.name, b, n);
    TotalsAppend(s.trace, TurnTokens(p.name, b));
    CountsAppend(s.trace, TurnTokens(p.name, b), n);
  }

  /** Work conservation of one iteration. */
  lemma StepConserves(s: State, g: Gate)
    requires WellFormed(s)
    ensures TotalRuns(Step(s, g).trace) + Owed(Step(s, g)) == TotalRuns(s.trace) + Owed(s)
    ensures forall n :: RunsOf(Step(s, g).trace, n) + OwedOf(Step(s, g), n) == RunsOf(s.trace, n) + OwedOf(s, n)
  {
    var a := Admit(s, g);
    var k := Top(a.tiers);
    AdmitConserves(s, g, "");
    if k >= 0 {
      TurnConserves(a, k, "");
    }
    forall n
      ensures RunsOf(Step(s, g).trace, n) + OwedOf(Step(s, g), n) == RunsOf(s.trace, n) + OwedOf(s, n)
    {
      AdmitConserves(s, g, n);
      if k >= 0 {
        TurnConserves(a, k, n);
      }
    }
  }

  // ---------------------------------------------------------------------------------------
  // What one iteration does
  // ---------------------------------------------------------------------------------------

  /** A pending process is admitted exactly when the gate lets it through; the others stay. */
  lemma AdmitMembership(ps: seq<Proc>, time: int, g: Gate, x: Proc)
    requires x in ps
    ensures x in Arrivals(ps, time, g) <==> Arrived(g, x, time)
    ensures x in Waiting(ps, time, g) <==> !Arrived(g, x, time)
  {
    AdmitPartition(ps, time, g);
    assert x in multiset(ps);
    if x in Arrivals(ps, time, g) {
      var i :| 0 <= i < |Arrivals(ps, time, g)| && Arrivals(ps, time, g)[i] == x;
    }
    if x in Waiting(ps, time, g) {
      var i :| 0 <= i < |Waiting(ps, time, g)| && Waiting(ps, time, g)[i] == x;
    }
  }

  /** With every tier empty after admission, the iteration is idle: no token, one clock tick. */
  lemma StepIdle(s: State, g: Gate)
    requires WellFormed(s) && Top(Admit(s, g).tiers) < 0
    ensures Step(s, g).trace == s.trace && Step(s, g).time == s.time + 1
    ensures forall j :: 0 <= j < 4 ==> Step(s, g).tiers[j] == []
    ensures Step(s, g).pending == Waiting(s.pending, s.time, g)
  {
  }

  /** Otherwise the head of the highest non-empty tier runs: its `Run` tokens, one per tick, then
      its marker when the turn ended in I/O, and the clock advances by the ticks run, at most the
      quantum of its tier. */
  lemma StepRunsHead(s: State, g: Gate)
    requires WellFormed(s) && Top(Admit(s, g).tiers) >= 0
    ensures var a := Admit(s, g); var k := Top(a.tiers);
      var p := a.tiers[k][0]; var b := RunBurst(p, QuantumMap[k]);
      && (forall j :: k < j < 4 ==> a.tiers[j] == [])
      && Step(s, g).trace == s.trace + Runs(p.name, b.ticks) + (if b.io then [IO(p.name)] else [])
      && Step(s, g).time == s.time + b.ticks
      && b.ticks <= 4 - k
  {
    var a := Admit(s, g);
    var k := Top(a.tiers);
    TurnRunsHead(a, k);
    assert Step(s, g) == Turn(a, k);
  }

  lemma TurnRunsHead(a: State, k: int)
    requires WellFormed(a) && 0 <= k < 4 && a.tiers[k] != []
    ensures var p := a.tiers[k][0]; var b := RunBurst(p, QuantumMap[k]);
      && Turn(a, k).trace == a.trace + Runs(p.name, b.ticks) + (if b.io then [IO(p.name)] else [])
      && Turn(a, k).time == a.time + b.ticks
      && b.ticks <= 4 - k
  {
    var p := a.tiers[k][0];
    assert p.priority == k;
    BurstBounds(p, QuantumMap[k]);
  }

  /** Tier 0 after the boost holds only processes it held before; each process it held before
      is either still there or boosted into tier 3. */
  lemma {:induction false} SweepKeepsOrBoosts(b: seq<Proc>, examine: bool, x: Proc)
    requires x in b
    ensures x in Sweep(b, examine).0 || Boosted(x) in Sweep(b, examine).1
    decreases |b|
  {
    if x != b[0] {
      SweepKeepsOrBoosts(b[1..], !(examine && Eligible(b[0])), x);
    }
  }

  /** Ticks until the I/O interval of `p` is reached. */
  function IODue(p: Proc): int {
    p.ioFrequency - p.sinceIO
  }

  /** Ticks the quantum of tier `k` and the work of `p` allow. */
  function Cap(p: Proc, k: int): int {
    Min(4 - k, Positive(p.remaining))
  }

  /** Where the running process ends up after its turn, with `IODue` the ticks until its I/O
      interval and `Cap` the ticks its quantum and work allow:
      - I/O (`1 <= IODue <= Cap`): appended to tier 3 with priority 3 and the counter reset;
      - no I/O and work left: its quantum used up, appended to the tier below; a process demoted
        into tier 0 may be boosted into tier 3 in the same turn;
      - no I/O and no work left: gone, one process fewer. */
  lemma TurnOutcome(s: State, k: int)
    requires WellFormed(s) && 0 <= k < 4 && s.tiers[k] != []
    ensures var p := s.tiers[k][0]; var r := Turn(s, k);
      var rest3 := if k == 3 then s.tiers[3][1..] else s.tiers[3];
      && (1 <= IODue(p) <= Cap(p, k) ==>
            |rest3| < |r.tiers[3]|
            && r.tiers[3][..|rest3| + 1] == rest3 + [p.(remaining := p.remaining - IODue(p), sinceIO := 0, priority := 3)])
      && (!(1 <= IODue(p) <= Cap(p, k)) && p.remaining > Cap(p, k) ==>
            var after := Demote(p.(remaining := p.remaining - Cap(p, k), sinceIO := p.sinceIO + Cap(p, k)));
            && Cap(p, k) == 4 - k
            && (after.priority > 0 ==> r.tiers[after.priority] == s.tiers[after.priority] + [after])
            && (after.priority == 0 ==> after in r.tiers[0] || Boosted(after) in r.tiers[3]))
      && (!(1 <= IODue(p) <= Cap(p, k)) && p.remaining <= Cap(p, k) ==> Count(r.tiers) + 1 == Count(s.tiers))
  {
    var p := s.tiers[k][0];
    if 1 <= IODue(p) <= Cap(p, k) {
      TurnRequeuesIO(s, k);
    } else if p.remaining > Cap(p, k) {
      TurnDemotes(s, k);
    } else {
      TurnFinishes(s, k);
    }
  }

  /** The turn's tiers before the boost and the boost's effect on them. */
  lemma TurnTiers(s: State, k: int)
    requires WellFormed(s) && 0 <= k < 4 && s.tiers[k] != []
    ensures var p := s.tiers[k][0]; var b := RunBurst(p, QuantumMap[k]);
      var t2 := Requeue(s.tiers[k := s.tiers[k][1..]], b);
      && b == HeadBurst(s, k)
      && Turn(s, k).tiers == t2[0 := Sweep(t2[0], true).0][3 := t2[3] + Sweep(t2[0], true).1]
      && b.io == (1 <= IODue(p) <= Cap(p, k))
      && b.ticks == (if b.io then IODue(p) else Cap(p, k))
      && b.p == (if b.io then p.(remaining := p.remaining - IODue(p), sinceIO := 0, priority := 3)
                 else p.(remaining := p.remaining - Cap(p, k), sinceIO := p.sinceIO + Cap(p, k)))
  {
    var p := s.tiers[k][0];
    assert p.priority == k;
    BurstClosedForm(p, QuantumMap[k]);
  }

  lemma TurnRequeuesIO(s: State, k: int)
    requires WellFormed(s) && 0 <= k < 4 && s.tiers[k] != []
    requires 1 <= IODue(s.tiers[k][0]) <= Cap(s.tiers[k][0], k)
    ensures var p := s.tiers[k][0]; var r := Turn(s, k);
      var rest3 := if k == 3 then s.tiers[3][1..] else s.tiers[3];
      && |rest3| < |r.tiers[3]|
      && r.tiers[3][..|rest3| + 1] == rest3 + [p.(remaining := p.remaining - IODue(p), sinceIO := 0, priority := 3)]
  {
    TurnTiers(s, k);
    var b := HeadBurst(s, k);
    var t2 := Requeue(s.tiers[k := s.tiers[k][1..]], b);
    assert t2[3] == (if k == 3 then s.tiers[3][1..] else s.tiers[3]) + [b.p];
    assert (t2[3] + Sweep(t2[0], true).1)[..|t2[3]|] == t2[3];
  }

  lemma TurnDemotes(s: State, k: int)
    requires WellFormed(s) && 0 <= k < 4 && s.tiers[k] != []
    requires !(1 <= IODue(s.tiers[k][0]) <= Cap(s.tiers[k][0], k)) && s.tiers[k][0].remaining > Cap(s.tiers[k][0], k)
    ensures var p := s.tiers[k][0]; var r := Turn(s, k);
      var after := Demote(p.(remaining := p.remaining - Cap(p, k), sinceIO := p.sinceIO + Cap(p, k)));
      && Cap(p, k) == 4 - k
      && (after.priority > 0 ==> r.tiers[after.priority] == s.tiers[after.priority] + [after])
      && (after.priority == 0 ==> after in r.tiers[0] || Boosted(after) in r.tiers[3])
  {
    TurnTiers(s, k);
    var b := HeadBurst(s, k);
    var t2 := Requeue(s.tiers[k := s.tiers[k][1..]], b);
    var dm := Demote(b.p);
    assert dm in t2[dm.priority];
    if dm.priority == 0 {
      SweepKeepsOrBoosts(t2[0], true, dm);
    }
  }

  lemma TurnFinishes(s: State, k: int)
    requires WellFormed(s) && 0 <= k < 4 && s.tiers[k] != []
    requires !(1 <= IODue(s.tiers[k][0]) <= Cap(s.tiers[k][0], k)) && s.tiers[k][0].remaining <= Cap(s.tiers[k][0], k)
    ensures Count(Turn(s, k).tiers) + 1 == Count(s.tiers)
  {
    TurnTiers(s, k);
    var b := HeadBurst(s, k);
    var t2 := Requeue(s.tiers[k := s.tiers[k][1..]], b);
    assert |Sweep(t2[0], true).0| + |Sweep(t2[0], true).1| == |t2[0]|;
  }

  /** Number of queued processes. */
  function Count(ts: seq<seq<Proc>>): nat
    requires |ts| == 4
  {
    |ts[0]| + |ts[1]| + |ts[2]| + |ts[3]|
  }

  // ---------------------------------------------------------------------------------------
  // Running to the end
  // ---------------------------------------------------------------------------------------

  /** The loop guard: something is pending or queued. */
  predicate Busy(s: State)
    requires |s.tiers| == 4
  {
    s.pending != [] || s.tiers[0] != [] || s.tiers[1] != [] || s.tiers[2] != [] || s.tiers[3] != []
  }

  function Start(jobs: seq<Job>): (s: State)
    ensures WellFormed(s)
  {
    State(FromJobs(jobs), [[], [], [], []], 0, [])
  }

  /** The state after `k` iterations, the loop guard aside. */
  function Iterate(s: State, g: Gate, k: nat): (r: State)
    requires WellFormed(s)
    ensures WellFormed(r)
  {
    if k == 0 then s else Step(Iterate(s, g, k - 1), g)
  }

  /** The loop guard held before each of the first `k` iterations. */
  ghost predicate GuardHeld(s: State, g: Gate, k: nat)
    requires WellFormed(s)
  {
    k > 0 ==> GuardHeld(s, g, k - 1) && Busy(Iterate(s, g, k - 1))
  }

  lemma {:induction false} GuardHeldAt(s: State, g: Gate, k: nat, j: nat)
    requires WellFormed(s) && GuardHeld(s, g, k) && j < k
    ensures Busy(Iterate(s, g, j))
    decreases k
  {
    if j < k - 1 {
      GuardHeldAt(s, g, k - 1, j);
    }
  }

  datatype Outcome = Finished(last: State) | OutOfFuel(last: State)

  /** The outer loop with at most `fuel` iterations. A run that finishes has emptied every
      container and turned all the owed work into `Run` tokens, per process name. */
  method RunFuel(s: State, g: Gate, fuel: nat) returns (o: Outcome, steps: nat)
    requires WellFormed(s)
    ensures steps <= fuel && |o.last.tiers| == 4
    ensures o.OutOfFuel? ==> steps == fuel && Busy(o.last)
    ensures o.Finished? ==> !Busy(o.last)
    ensures o.Finished? ==> TotalRuns(o.last.trace) == TotalRuns(s.trace) + Owed(s)
    ensures o.Finished? ==> forall n :: RunsOf(o.last.trace, n) == RunsOf(s.trace, n) + OwedOf(s, n)
    ensures GuardHeld(s, g, steps)
    ensures o.last == Iterate(s, g, steps)
  {
    var cur := s;
    steps := 0;
    while Busy(cur) && steps < fuel
      invariant steps <= fuel && cur == Iterate(s, g, steps)
      invariant GuardHeld(s, g, steps)
      invariant TotalRuns(cur.trace) + Owed(cur) == TotalRuns(s.trace) + Owed(s)
      invariant forall n :: RunsOf(cur.trace, n) + OwedOf(cur, n) == RunsOf(s.trace, n) + OwedOf(s, n)
    {
      StepConserves(cur, g);
      cur := Step(cur, g);
      steps := steps + 1;
    }
    if Busy(cur) {
      o := OutOfFuel(cur);
    } else {
      assert Owed(cur) == 0;
      o := Finished(cur);
    }
  }

  /** The scheduler with an iteration budget: its outcome is the source loop after `steps`
      iterations, the guard having held before each of them, stopped because it failed or the
      budget ran out; when it finishes, every process has run for its whole duration. */
  method MlfqScheduler(jobs: seq<Job>, fuel: nat) returns (o: Outcome, steps: nat)
    ensures steps <= fuel && |o.last.tiers| == 4
    ensures o.OutOfFuel? ==> steps == fuel && Busy(o.last)
    ensures o.Finished? ==> !Busy(o.last)
    ensures o.Finished? ==> TotalRuns(o.last.trace) == JobWork(jobs, 0)
    ensures o.Finished? ==> forall n :: RunsOf(o.last.trace, n) == JobWorkOf(jobs, n, 0)
    ensures GuardHeld(Start(jobs), Exact, steps)
    ensures o.last == Iterate(Start(jobs), Exact, steps)
  {
    WorkFromJobs(jobs, 0);
    o, steps := RunFuel(Start(jobs), Exact, fuel);
  }

  // ---------------------------------------------------------------------------------------
  // The admission gate: the source's test can skip an arrival for good
  // ---------------------------------------------------------------------------------------

  lemma {:induction false} NoArrivals(ps: seq<Proc>, time: int, g: Gate)
    requires forall i :: 0 <= i < |ps| ==> !Arrived(g, ps[i], time)
    ensures Arrivals(ps, time, g) == [] && Waiting(ps, time, g) == ps
    decreases |ps|
  {
    if ps != [] {
      NoArrivals(ps[1..], time, g);
      assert ps == [ps[0]] + ps[1..];
    }
  }

  /** Every queue is empty and every pending process arrived strictly before the clock. */
  ghost predicate Stalled(s: State) {
    && WellFormed(s)
    && s.tiers[0] == [] && s.tiers[1] == [] && s.tiers[2] == [] && s.tiers[3] == []
    && forall i :: 0 <= i < |s.pending| ==> s.pending[i].arrival < s.time
  }

  /** With the source's gate, a stalled state stays stalled: the iteration admits nothing,
      runs nothing and only advances the clock. */
  lemma StalledStep(s: State)
    requires Stalled(s)
    ensures Step(s, Exact) == s.(time := s.time + 1)
    ensures Stalled(Step(s, Exact))
  {
    NoArrivals(s.pending, s.time, Exact);
    assert Admit(s, Exact).tiers == s.tiers;
  }

  /** ... and so, once stalled, the loop never ends while something is pending: every later
      state is stalled too, with the same processes pending. */
  lemma StalledForever(s: State, n: nat)
    requires Stalled(s)
    ensures Stalled(Iterate(s, Exact, n))
    ensures Iterate(s, Exact, n).pending == s.pending
  {
    var j := 0;
    while j < n
      invariant j <= n && Stalled(Iterate(s, Exact, j))
      invariant Iterate(s, Exact, j).pending == s.pending
    {
      StalledIterate(s, j);
      j := j + 1;
    }
  }

  lemma StalledIterate(s: State, j: nat)
    requires WellFormed(s) && Stalled(Iterate(s, Exact, j))
    ensures Stalled(Iterate(s, Exact, j + 1))
    ensures Iterate(s, Exact, j + 1).pending == Iterate(s, Exact, j).pending
  {
    StalledStep(Iterate(s, Exact, j));
  }

  /** A turn after which tier 0 holds no process due for a boost, spelled out. */
  lemma TurnShape(a: State, k: int, t2: seq<seq<Proc>>, tokens: seq<Token>)
    requires WellFormed(a) && 0 <= k < 4 && a.tiers[k] != []
    requires Requeue(a.tiers[k := a.tiers[k][1..]], HeadBurst(a, k)) == t2
    requires TurnTokens(Head(a, k).name, HeadBurst(a, k)) == tokens
    requires forall i :: 0 <= i < |t2[0]| ==> !Eligible(t2[0][i])
    ensures Turn(a, k) == State(a.pending, t2, a.time + HeadBurst(a, k).ticks, a.trace + tokens)
  {
    NoSweep(t2[0]);
    assert t2[3] + [] == t2[3];
    assert t2[0 := t2[0]][3 := t2[3]] == t2;
  }

  lemma {:induction false} NoSweep(t0: seq<Proc>)
    requires forall i :: 0 <= i < |t0| ==> !Eligible(t0[i])
    ensures Sweep(t0, true) == (t0, [])
    decreases |t0|
  {
    if t0 != [] {
      NoSweep(t0[1..]);
      assert t0 == [t0[0]] + t0[1..];
    }
  }

  /** `X` needs 4 ticks from time 0, `Y` 1 tick from time 2, neither does I/O. */
  const SkipJobs: seq<Job> := [Job("X", 4, 0, 0), Job("Y", 1, 2, 0)]
  const Y0: Proc := Proc("Y", 1, 2, 0, 0, 3, 0)

  /** The states after one, two and three iterations: `X` runs 1 tick in tier 3, 2 in tier 2
      and its last one in tier 1, which takes the clock from 3 to 4, past `Y`'s arrival at 2
      without an iteration starting at 2. */
  const Skip1: State := State([Y0], [[], [], [Proc("X", 3, 0, 0, 1, 2, 0)], []], 1, [Run("X")])
  const Skip2: State := State([Y0], [[], [Proc("X", 1, 0, 0, 3, 1, 0)], [], []], 3, [Run("X"), Run("X"), Run("X")])
  const Skip3: State := State([Y0], [[], [], [], []], 4, [Run("X"), Run("X"), Run("X"), Run("X")])

  const X0: Proc := Proc("X", 4, 0, 0, 0, 3, 0)
  const Skip0: State := State([Y0], [[], [], [], [X0]], 0, [])

  lemma SkipStart()
    ensures Start(SkipJobs) == State([X0, Y0], [[], [], [], []], 0, [])
  {
    assert FromJobs(SkipJobs) == [X0, Y0];
  }

  lemma SkipArrivals0()
    ensures Arrivals([X0, Y0], 0, Exact) == [X0] && Waiting([X0, Y0], 0, Exact) == [Y0]
  {
    assert [X0, Y0][1..] == [Y0] && [Y0][1..] == [];
    assert Arrivals([Y0], 0, Exact) == [];
    assert Waiting([Y0], 0, Exact) == [Y0];
  }

  /** At time 0 only `X` is admitted. */
  lemma SkipAdmit0()
    ensures Admit(Start(SkipJobs), Exact) == Skip0
  {
    SkipStart();
    SkipArrivals0();
    var e: seq<Proc> := [];
    assert e + [X0] == [X0];
    assert [e, e, e, e][3 := [X0]] == Skip0.tiers;
  }

  lemma SkipTurn1()
    ensures WellFormed(Skip0) && Turn(Skip0, 3) == Skip1
  {
    var a := Skip0;
    var p1 := X0.(remaining := 3, sinceIO := 1);
    var b := Burst(p1, 1, false);
    assert HeadBurst(a, 3) == b by {
      assert RunBurst(p1, 0) == Burst(p1, 0, false);
    }
    var d := Demote(p1);
    assert d == Skip1.tiers[2][0];
    var t2 := [[], [], [d], []];
    assert Requeue(a.tiers[3 := a.tiers[3][1..]], b) == t2 by {
      assert a.tiers[3][1..] == [];
      assert a.tiers[3 := []] == [[], [], [], []];
      var e: seq<Proc> := [];
      assert e + [d] == [d];
      assert [e, e, e, e][2 := [d]] == t2;
    }
    assert TurnTokens("X", b) == [Run("X")] by {
      assert Runs("X", 1) == [Run("X")];
    }
    TurnShape(a, 3, t2, [Run("X")]);
    assert t2 == Skip1.tiers;
  }

  lemma SkipStep1()
    ensures Step(Start(SkipJobs), Exact) == Skip1
  {
    SkipAdmit0();
    SkipTurn1();
    assert Top(Skip0.tiers) == 3;
  }

  lemma SkipStep2()
    ensures Step(Skip1, Exact) == Skip2
  {
    var x1 := Skip1.tiers[2][0];
    NoArrivals([Y0], 1, Exact);
    assert Admit(Skip1, Exact) == Skip1 by {
      assert Skip1.tiers[3 := Skip1.tiers[3] + []] == Skip1.tiers;
    }
    assert Top(Skip1.tiers) == 2;
    var p1 := x1.(remaining := 2, sinceIO := 2);
    var p2 := x1.(remaining := 1, sinceIO := 3);
    var b := Burst(p2, 2, false);
    assert HeadBurst(Skip1, 2) == b by {
      assert RunBurst(p2, 0) == Burst(p2, 0, false);
      assert RunBurst(p1, 1) == Burst(p2, 1, false);
    }
    var d := Demote(p2);
    assert d == Skip2.tiers[1][0];
    var t2 := [[], [d], [], []];
    assert Requeue(Skip1.tiers[2 := Skip1.tiers[2][1..]], b) == t2 by {
      assert Skip1.tiers[2][1..] == [];
      assert Skip1.tiers[2 := []] == [[], [], [], []];
      var e: seq<Proc> := [];
      assert e + [d] == [d];
      assert [e, e, e, e][1 := [d]] == t2;
    }
    assert TurnTokens("X", b) == [Run("X"), Run("X")] by {
      assert Runs("X", 2) == [Run("X"), Run("X")];
    }
    TurnShape(Skip1, 2, t2, [Run("X"), Run("X")]);
    assert t2 == Skip2.tiers;
    assert Skip1.trace + [Run("X"), Run("X")] == Skip2.trace;
  }

  lemma SkipStep3()
    ensures Step(Skip2, Exact) == Skip3
  {
    var x2 := Skip2.tiers[1][0];
    NoArrivals([Y0], 3, Exact);
    assert Admit(Skip2, Exact) == Skip2 by {
      assert Skip2.tiers[3 := Skip2.tiers[3] + []] == Skip2.tiers;
    }
    assert Top(Skip2.tiers) == 1;
    var p1 := x2.(remaining := 0, sinceIO := 4);
    var b := Burst(p1, 1, false);
    assert HeadBurst(Skip2, 1) == b by {
      assert RunBurst(p1, 2) == Burst(p1, 0, false);
    }
    var t2: seq<seq<Proc>> := [[], [], [], []];
    assert Requeue(Skip2.tiers[1 := Skip2.tiers[1][1..]], b) == t2 by {
      assert Skip2.tiers[1][1..] == [];
      assert Skip2.tiers[1 := []] == t2;
    }
    assert TurnTokens("X", b) == [Run("X")] by {
      assert Runs("X", 1) == [Run("X")];
    }
    TurnShape(Skip2, 1, t2, [Run("X")]);
    assert Skip2.trace + [Run("X")] == Skip3.trace;
  }

  lemma SkipFirst()
    ensures Iterate(Start(SkipJobs), Exact, 1) == Skip1
  {
    SkipStep1();
  }

  lemma SkipSecond()
    ensures Iterate(Start(SkipJobs), Exact, 2) == Skip2
  {
    SkipFirst();
    SkipStep2();
  }

  lemma SkipThird()
    ensures Iterate(Start(SkipJobs), Exact, 3) == Skip3
  {
    SkipSecond();
    SkipStep3();
  }

  /** Iterating `m + k` times is iterating `m` times, then `k` more. */
  lemma IterateSplit(s: State, g: Gate, m: nat, k: nat)
    requires WellFormed(s)
    ensures Iterate(s, g, m + k) == Iterate(Iterate(s, g, m), g, k)
    decreases k
  {
    if k == 0 {
      IterateSplitBase(s, g, m, k);
    } else {
      IterateSplit(s, g, m, k - 1);
      IterateSplitStep(s, g, m, k);
    }
  }

  lemma IterateSplitBase(s: State, g: Gate, m: nat, k: nat)
    requires WellFormed(s) && k == 0
    ensures Iterate(s, g, m + k) == Iterate(Iterate(s, g, m), g, k)
  {
    SameIterate(s, g, m + k, m);
  }

  lemma IterateSplitStep(s: State, g: Gate, m: nat, k: nat)
    requires WellFormed(s) && k > 0
    requires Iterate(s, g, m + (k - 1)) == Iterate(Iterate(s, g, m), g, k - 1)
    ensures Iterate(s, g, m + k) == Iterate(Iterate(s, g, m), g, k)
  {
    SameIterate(s, g, m + k - 1, m + (k - 1));
  }

  /** The source's loop never ends on `SkipJobs`: its guard holds after any number of
      iterations, because `Y` is never admitted. From the third iteration on nothing is queued,
      `Y` is pending and no iteration runs anything. */
  lemma {:induction false} ExactGateSpins(k: nat)
    ensures Busy(Iterate(Start(SkipJobs), Exact, k))
    ensures k >= 3 ==> Stalled(Iterate(Start(SkipJobs), Exact, k))
    ensures k >= 3 ==> Iterate(Start(SkipJobs), Exact, k).pending == [Y0]
  {
    if k >= 3 {
      var j := k - 3;
      SameIterate(Start(SkipJobs), Exact, k, 3 + j);
      SpinsLate(j);
    } else {
      SpinsEarly(k);
    }
  }

  lemma SameIterate(s: State, g: Gate, a: nat, b: nat)
    requires WellFormed(s) && a == b
    ensures Iterate(s, g, a) == Iterate(s, g, b)
  {
  }

  lemma SpinsLate(j: nat)
    ensures Stalled(Iterate(Start(SkipJobs), Exact, 3 + j))
    ensures Iterate(Start(SkipJobs), Exact, 3 + j).pending == [Y0]
  {
    SkipThird();
    SkipStalled();
    IterateSplit(Start(SkipJobs), Exact, 3, j);
    StalledForever(Skip3, j);
  }

  lemma SkipStalled()
    ensures Stalled(Skip3)
  {
  }

  lemma {:induction false} SpinsEarly(k: nat)
    requires k < 3
    ensures Busy(Iterate(Start(SkipJobs), Exact, k))
  {
    if k == 0 {
      SkipStart();
    } else if k == 1 {
      SkipFirst();
    } else {
      SkipSecond();
    }
  }

  // ---------------------------------------------------------------------------------------
  // The corrected gate: admitting every arrival by the clock, the loop always ends
  // ---------------------------------------------------------------------------------------

  /** Earliest arrival among the pending processes. */
  function MinArrival(ps: seq<Proc>): (m: int)
    requires ps != []
    ensures forall i :: 0 <= i < |ps| ==> m <= ps[i].arrival
    ensures exists i :: 0 <= i < |ps| && m == ps[i].arrival
  {
    if |ps| == 1 then ps[0].arrival
    else
      var r := MinArrival(ps[1..]);
      assert forall i :: 1 <= i < |ps| ==> ps[i] == ps[1..][i - 1];
      if ps[0].arrival <= r then ps[0].arrival else r
  }

  /** Idle ticks until the next pending process arrives. */
  function LeastGap(s: State): nat {
    if s.pending == [] then 0 else Positive(MinArrival(s.pending) - s.time)
  }

  /** Processes still pending or queued. */
  function Size(s: State): nat
    requires |s.tiers| == 4
  {
    |s.pending| + Count(s.tiers)
  }

  /** With nothing admitted, every pending process is still to come and stays pending. */
  lemma {:induction false} NoneAdmitted(ps: seq<Proc>, time: int, g: Gate)
    requires Arrivals(ps, time, g) == []
    ensures forall i :: 0 <= i < |ps| ==> !Arrived(g, ps[i], time)
    ensures Waiting(ps, time, g) == ps
    decreases |ps|
  {
    if ps != [] {
      if Arrived(g, ps[0], time) {
        assert false;
      }
      NoneAdmitted(ps[1..], time, g);
      forall i | 1 <= i < |ps|
        ensures !Arrived(g, ps[i], time)
      {
        assert ps[i] == ps[1..][i - 1];
      }
    }
    NoArrivals(ps, time, g);
  }

  /** Admission moves processes from the pending list into tier 3 and loses none. */
  lemma AdmitSize(s: State, g: Gate)
    requires WellFormed(s)
    ensures Size(Admit(s, g)) == Size(s)
  {
    AdmitPartition(s.pending, s.time, g);
    assert |multiset(Arrivals(s.pending, s.time, g))| + |multiset(Waiting(s.pending, s.time, g))| == |multiset(s.pending)|;
  }

  /** An idle iteration under the corrected gate brings the next arrival one tick closer. */
  lemma IdleProgress(s: State)
    requires WellFormed(s) && Busy(s) && Top(Admit(s, ByNow).tiers) < 0
    ensures Owed(Step(s, ByNow)) == Owed(s) && Size(Step(s, ByNow)) == Size(s)
    ensures LeastGap(Step(s, ByNow)) < LeastGap(s)
  {
    IdleStep(s);
    GapShrinks(s.pending, s.time);
  }

  /** Under the corrected gate an idle iteration only advances the clock, and it happens only
      when every queue is empty and every pending process is still to come. */
  lemma IdleStep(s: State)
    requires WellFormed(s) && Top(Admit(s, ByNow).tiers) < 0
    ensures Step(s, ByNow) == s.(time := s.time + 1)
    ensures s.tiers[0] == [] && s.tiers[1] == [] && s.tiers[2] == [] && s.tiers[3] == []
    ensures forall i :: 0 <= i < |s.pending| ==> s.pending[i].arrival > s.time
  {
    var a := Arrivals(s.pending, s.time, ByNow);
    assert Admit(s, ByNow).tiers[3] == s.tiers[3] + a;
    NoneAdmitted(s.pending, s.time, ByNow);
    assert Admit(s, ByNow).tiers == s.tiers;
  }

  lemma GapShrinks(ps: seq<Proc>, time: int)
    requires ps != [] && forall i :: 0 <= i < |ps| ==> ps[i].arrival > time
    ensures Positive(MinArrival(ps) - (time + 1)) < Positive(MinArrival(ps) - time)
  {
    var i :| 0 <= i < |ps| && MinArrival(ps) == ps[i].arrival;
  }

  /** A turn either runs at least one tick, paying that much owed work, or meets a process with
      no work left, which it drops without running. */
  lemma TurnProgress(a: State, k: int)
    requires WellFormed(a) && 0 <= k < 4 && a.tiers[k] != []
    ensures Turn(a, k).pending == a.pending
    ensures HeadBurst(a, k).ticks >= 1 ==> Owed(Turn(a, k)) < Owed(a)
    ensures HeadBurst(a, k).ticks == 0 ==> Owed(Turn(a, k)) == Owed(a) && Count(Turn(a, k).tiers) < Count(a.tiers)
  {
    var p := Head(a, k);
    var b := HeadBurst(a, k);
    assert p.priority == k;
    BurstClosedForm(p, QuantumMap[k]);
    TurnConserves(a, k, "");
    TurnTokensCount(p.name, b, "");
    TotalsAppend(a.trace, TurnTokens(p.name, b));
    if b.ticks == 0 {
      TurnOutcome(a, k);
    }
  }

  /** Every iteration under the corrected gate makes progress: less owed work, or as much work
      and fewer processes, or as much of both and the next arrival nearer. */
  lemma StepProgress(s: State)
    requires WellFormed(s) && Busy(s)
    ensures var r := Step(s, ByNow);
      || Owed(r) < Owed(s)
      || (Owed(r) == Owed(s) && Size(r) < Size(s))
      || (Owed(r) == Owed(s) && Size(r) == Size(s) && LeastGap(r) < LeastGap(s))
  {
    var a := Admit(s, ByNow);
    var k := Top(a.tiers);
    if k < 0 {
      IdleProgress(s);
    } else {
      AdmitConserves(s, ByNow, "");
      AdmitSize(s, ByNow);
      TurnProgress(a, k);
      assert Step(s, ByNow) == Turn(a, k);
    }
  }

  /** The outer loop with the corrected gate: it ends for every input, with every container
      empty and all the owed work turned into `Run` tokens, per process name. */
  method RunToEnd(s: State) returns (r: State, steps: nat)
    requires WellFormed(s)
    ensures |r.tiers| == 4 && !Busy(r)
    ensures TotalRuns(r.trace) == TotalRuns(s.trace) + Owed(s)
    ensures forall n :: RunsOf(r.trace, n) == RunsOf(s.trace, n) + OwedOf(s, n)
    ensures GuardHeld(s, ByNow, steps)
    ensures r == Iterate(s, ByNow, steps)
  {
    r := s;
    steps := 0;
    while Busy(r)
      invariant r == Iterate(s, ByNow, steps)
      invariant GuardHeld(s, ByNow, steps)
      invariant TotalRuns(r.trace) + Owed(r) == TotalRuns(s.trace) + Owed(s)
      invariant forall n :: RunsOf(r.trace, n) + OwedOf(r, n) == RunsOf(s.trace, n) + OwedOf(s, n)
      decreases Owed(r), Size(r), LeastGap(r)
    {
      StepConserves(r, ByNow);
      StepProgress(r);
      r := Step(r, ByNow);
      steps := steps + 1;
    }
    assert Owed(r) == 0;
  }

  /** The scheduler with the corrected gate: its result is the loop after `steps` iterations, the
      first point at which its guard fails; it ends, and every process has run for its whole duration. */
  method MlfqSchedulerByNow(jobs: seq<Job>) returns (r: State, steps: nat)
    ensures |r.tiers| == 4 && !Busy(r)
    ensures TotalRuns(r.trace) == JobWork(jobs, 0)
    ensures forall n :: RunsOf(r.trace, n) == JobWorkOf(jobs, n, 0)
    ensures GuardHeld(Start(jobs), ByNow, steps)
    ensures r == Iterate(Start(jobs), ByNow, steps)
  {
    WorkFromJobs(jobs, 0);
    r, steps := RunToEnd(Start(jobs));
  }
}

=== FILE: mlfq_boost.dfy ===
/** The priority boost of the MLFQ scheduler: after every turn, the lowest tier is scanned and
    each process whose waiting credit reached the threshold is moved to the tail of the top tier.
    The scan removes from the list it is iterating over, so the element that slides into the
    freed position is not looked at: after a boost, the next process is skipped. */
module MlfqBoost {
  import opened Common

  const BoostThreshold: int := 11

  predicate Eligible(p: Proc) {
    p.wait >= BoostThreshold
  }

  /** A boosted process: top priority, credit cleared. */
  function Boosted(p: Proc): (b: Proc)
    ensures b.priority == 3 && b.wait == 0
    ensures b.name == p.name && b.remaining == p.remaining
    ensures b.ioFrequency == p.ioFrequency && b.sinceIO == p.sinceIO && b.arrival == p.arrival
  {
    p.(priority := 3, wait := 0)
  }

  /** `y` is the boosted form of a process of `ps`. */
  ghost predicate BoostedFrom(y: Proc, ps: seq<Proc>) {
    exists x :: x in ps && y == Boosted(x)
  }

  /** Removing the element at `i` keeps the others. */
  lemma RemoveAt(ps: seq<Proc>, i: nat)
    requires i < |ps|
    ensures multiset(ps[..i] + ps[i + 1..]) + multiset{ps[i]} == multiset(ps)
    ensures forall x :: x in ps[..i] + ps[i + 1..] ==> x in ps
  {
    assert ps == ps[..i] + [ps[i]] + ps[i + 1..];
  }

  /** The scan as the source performs it: a list iterator at position `i` over tier 0, which
      `remove` shortens under it. Returns the new tier 0 and tier 3. */
  function BoostScan(t0: seq<Proc>, i: nat, t3: seq<Proc>): (r: (seq<Proc>, seq<Proc>))
    ensures |r.0| + |r.1| == |t0| + |t3|
    decreases |t0| - i
  {
    if i >= |t0| then (t0, t3)
    else if Eligible(t0[i]) then BoostScan(t0[..i] + t0[i + 1..], i + 1, t3 + [Boosted(t0[i])])
    else BoostScan(t0, i + 1, t3)
  }

  /** The scan moves processes and makes up none: tier 3 keeps its old processes in front, tier
      0 keeps only processes it had, and each process added to tier 3 is the boosted form of one
      taken out of tier 0. */
  lemma {:induction false} ScanKeepsProcesses(t0: seq<Proc>, i: nat, t3: seq<Proc>)
    ensures var r := BoostScan(t0, i, t3);
      && |t3| <= |r.1| && r.1[..|t3|] == t3
      && multiset(r.0) <= multiset(t0)
      && forall j :: |t3| <= j < |r.1| ==> BoostedFrom(r.1[j], t0)
    decreases |t0| - i
  {
    if i < |t0| && Eligible(t0[i]) {
      var rest := t0[..i] + t0[i + 1..];
      var t3' := t3 + [Boosted(t0[i])];
      RemoveAt(t0, i);
      ScanKeepsProcesses(rest, i + 1, t3');
      var r := BoostScan(rest, i + 1, t3');
      assert r.1[..|t3|] == r.1[..|t3'|][..|t3|];
      assert r.1[|t3|] == r.1[..|t3'|][|t3|];
      assert BoostedFrom(r.1[|t3|], t0);
    } else if i < |t0| {
      ScanKeepsProcesses(t0, i + 1, t3);
    }
  }

  /** Reference definition of the scan: walks the list once, `examine` telling whether the
      current element is looked at, which holds exactly when its predecessor was not boosted.
      Returns the processes kept in tier 0 and the boosted ones, both in list order. */
  function Sweep(b: seq<Proc>, examine: bool): (r: (seq<Proc>, seq<Proc>))
    ensures |r.0| + |r.1| == |b|
  {
    if b == [] then ([], [])
    else if examine && Eligible(b[0]) then
      var rest := Sweep(b[1..], false);
      (rest.0, [Boosted(b[0])] + rest.1)
    else
      var rest := Sweep(b[1..], true);
      ([b[0]] + rest.0, rest.1)
  }

  /** The iterator scan is the reference sweep: the part of tier 0 already passed is kept as is,
      the rest is swept, and the boosted processes go to the tail of tier 3 in list order. */
  lemma {:induction false} ScanIsSweep(a: seq<Proc>, b: seq<Proc>, examine: bool, t3: seq<Proc>)
    ensures BoostScan(a + b, |a| + (if examine then 0 else 1), t3)
         == (a + Sweep(b, examine).0, t3 + Sweep(b, examine).1)
    decreases |b|, 1
  {
    if b == [] {
      assert a + b == a && a + [] == a && t3 + [] == t3;
    } else if !examine {
      ScanPasses(a, b, t3);
    } else if Eligible(b[0]) {
      ScanBoosts(a, b, t3);
    } else {
      ScanKeeps(a, b, t3);
    }
  }

  /** The element after a removal slid under the iterator and is passed over unexamined. */
  lemma {:induction false} ScanPasses(a: seq<Proc>, b: seq<Proc>, t3: seq<Proc>)
    requires b != []
    ensures BoostScan(a + b, |a| + 1, t3) == (a + Sweep(b, false).0, t3 + Sweep(b, false).1)
    decreases |b|, 0
  {
    assert a + b == (a + [b[0]]) + b[1..];
    ScanIsSweep(a + [b[0]], b[1..], true, t3);
    assert (a + [b[0]]) + Sweep(b[1..], true).0 == a + ([b[0]] + Sweep(b[1..], true).0);
  }

  /** An examined eligible element is removed and appended, boosted, to tier 3. */
  lemma {:induction false} ScanBoosts(a: seq<Proc>, b: seq<Proc>, t3: seq<Proc>)
    requires b != [] && Eligible(b[0])
    ensures BoostScan(a + b, |a|, t3) == (a + Sweep(b, true).0, t3 + Sweep(b, true).1)
    decreases |b|, 0
  {
    var ab := a + b;
    var t3' := t3 + [Boosted(b[0])];
    var rest := Sweep(b[1..], false);
    assert ab[|a|] == b[0];
    assert ab[..|a|] + ab[|a| + 1..] == a + b[1..];
    ScanRemoves(ab, |a|, t3);
    ScanIsSweep(a, b[1..], false, t3');
    assert Sweep(b, true) == (rest.0, [Boosted(b[0])] + rest.1);
    assert t3' + rest.1 == t3 + ([Boosted(b[0])] + rest.1);
  }

  /** One step of the scan at an eligible element. */
  lemma ScanRemoves(t0: seq<Proc>, i: nat, t3: seq<Proc>)
    requires i < |t0| && Eligible(t0[i])
    ensures BoostScan(t0, i, t3) == BoostScan(t0[..i] + t0[i + 1..], i + 1, t3 + [Boosted(t0[i])])
  {
  }

  /** An examined element that is not eligible stays, and the next one is examined. */
  lemma {:induction false} ScanKeeps(a: seq<Proc>, b: seq<Proc>, t3: seq<Proc>)
    requires b != [] && !Eligible(b[0])
    ensures BoostScan(a + b, |a|, t3) == (a + Sweep(b, true).0, t3 + Sweep(b, true).1)
    decreases |b|, 0
  {
    assert (a + b)[|a|] == b[0];
    assert a + b == (a + [b[0]]) + b[1..];
    ScanIsSweep(a + [b[0]], b[1..], true, t3);
    assert (a + [b[0]]) + Sweep(b[1..], true).0 == a + ([b[0]] + Sweep(b[1..], true).0);
  }

  /** The boost of one turn: scan tier 0 from its start, appending to tier 3. */
  function Boost(t0: seq<Proc>, t3: seq<Proc>): (r: (seq<Proc>, seq<Proc>))
    ensures r == (Sweep(t0, true).0, t3 + Sweep(t0, true).1)
  {
    ScanIsSweep([], t0, true, t3);
    assert [] + t0 == t0 && [] + Sweep(t0, true).0 == Sweep(t0, true).0;
    BoostScan(t0, 0, t3)
  }

  /** What the sweep does to the processes: every boosted one has top priority and no credit,
      the kept ones are drawn from the scanned list, and no work is lost or gained; an examined
      head goes to tier 3 exactly when it is eligible. */
  lemma {:induction false} SweepSplits(b: seq<Proc>, examine: bool, n: string)
    ensures forall x :: x in Sweep(b, examine).1 ==> x.priority == 3 && x.wait == 0
    ensures multiset(Sweep(b, examine).0) <= multiset(b)
    ensures Work(Sweep(b, examine).0, 0) + Work(Sweep(b, examine).1, 0) == Work(b, 0)
    ensures WorkOf(Sweep(b, examine).0, n, 0) + WorkOf(Sweep(b, examine).1, n, 0) == WorkOf(b, n, 0)
    ensures examine && b != [] && Eligible(b[0]) ==> Sweep(b, examine).1[0] == Boosted(b[0])
    ensures examine && b != [] && !Eligible(b[0]) ==> Sweep(b, examine).0[0] == b[0]
    decreases |b|
  {
    if b != [] {
      var e := !(examine && Eligible(b[0]));
      var rest := Sweep(b[1..], e);
      SweepSplits(b[1..], e, n);
      assert b == [b[0]] + b[1..];
      WorkCons(b[0], b[1..], n, 0);
      if examine && Eligible(b[0]) {
        WorkCons(Boosted(b[0]), rest.1, n, 0);
      } else {
        WorkCons(b[0], rest.0, n, 0);
      }
    }
  }

  /** The skip made concrete: of two adjacent eligible processes at the head of tier 0, only the
      first is boosted; the second stays in tier 0 with its credit. */
  lemma SkipsAfterRemoval(x: Proc, y: Proc)
    requires Eligible(x) && Eligible(y)
    ensures BoostScan([x, y], 0, []) == ([y], [Boosted(x)])
  {
    assert [x, y][..0] + [x, y][1..] == [y];
    assert [] + [Boosted(x)] == [Boosted(x)];
  }
}

=== FILE: stcf.dfy ===
/** Shortest-Time-to-Completion-First over a sorted list: every tick the ready list is stably
    re-sorted by remaining time (the previous head winning ties) and its head runs one tick.
    I/O is a marker only: the process stays in the list. */
module Stcf {
  import opened Common

  // ---------------------------------------------------------------------------------------
  // The per-tick re-sort
  // ---------------------------------------------------------------------------------------

  /** An entry of the source's sort: a process and the second component of its sort key,
      0 for the entry at the head of the list before the sort and 1 for every other entry. */
  datatype Entry = Entry(p: Proc, tie: int)

  /** Lexicographic comparison of the sort keys `(remaining, tie)`. */
  predicate KeyLe(a: Entry, b: Entry) {
    a.p.remaining < b.p.remaining || (a.p.remaining == b.p.remaining && a.tie <= b.tie)
  }

  ghost predicate KeySorted(es: seq<Entry>) {
    forall i, j :: 0 <= i < j < |es| ==> KeyLe(es[i], es[j])
  }

  /** Stable insertion of an entry that came before all of `s`: it goes in front of the first
      entry whose key is not smaller than its own. */
  function Insert(x: Entry, s: seq<Entry>): (r: seq<Entry>)
    ensures multiset(r) == multiset(s) + multiset{x}
  {
    if s == [] then [x]
    else if KeyLe(x, s[0]) then [x] + s
    else
      assert s == [s[0]] + s[1..];
      [s[0]] + Insert(x, s[1..])
  }

  lemma {:induction false} InsertSorted(x: Entry, s: seq<Entry>)
    requires KeySorted(s)
    ensures KeySorted(Insert(x, s))
    decreases |s|
  {
    if s != [] && !KeyLe(x, s[0]) {
      var rest := Insert(x, s[1..]);
      InsertSorted(x, s[1..]);
      forall y | y in rest
        ensures KeyLe(s[0], y)
      {
        assert y in multiset(rest);
        if y != x {
          assert y in multiset(s[1..]);
          var j :| 0 <= j < |s[1..]| && s[1..][j] == y;
          assert s[1 + j] == y;
        }
      }
      var r := [s[0]] + rest;
      forall i, j | 0 <= i < j < |r|
        ensures KeyLe(r[i], r[j])
      {
        if i == 0 {
          assert r[j] == rest[j - 1];
          assert r[j] in rest;
        } else {
          assert r[i] == rest[i - 1] && r[j] == rest[j - 1];
        }
      }
    }
  }

  /** A stable sort by key: insertion sort processing the list from the front. */
  function SortEntries(es: seq<Entry>): (r: seq<Entry>)
    ensures multiset(r) == multiset(es)
  {
    if es == [] then []
    else
      assert es == [es[0]] + es[1..];
      Insert(es[0], SortEntries(es[1..]))
  }

  lemma {:induction false} SortSorted(es: seq<Entry>)
    ensures KeySorted(SortEntries(es))
    decreases |es|
  {
    if es != [] {
      SortSorted(es[1..]);
      InsertSorted(es[0], SortEntries(es[1..]));
    }
  }

  /** The keyed list the source sorts: the head gets tie 0, every other entry tie 1. */
  function Tag(q: seq<Proc>): (es: seq<Entry>)
    ensures |es| == |q|
    ensures forall i :: 0 <= i < |q| ==> es[i] == Entry(q[i], if i == 0 then 0 else 1)
  {
    seq(|q|, i requires 0 <= i < |q| => Entry(q[i], if i == 0 then 0 else 1))
  }

  function Procs(es: seq<Entry>): (ps: seq<Proc>)
    ensures |ps| == |es|
    ensures forall i :: 0 <= i < |es| ==> ps[i] == es[i].p
  {
    seq(|es|, i requires 0 <= i < |es| => es[i].p)
  }

  lemma ProcsRemove(b: seq<Entry>, i: nat)
    requires i < |b|
    ensures multiset(Procs(b[..i] + b[i + 1..])) + multiset{b[i].p} == multiset(Procs(b))
  {
    var pb := Procs(b);
    assert pb == pb[..i] + [b[i].p] + pb[i + 1..];
    assert Procs(b[..i] + b[i + 1..]) == pb[..i] + pb[i + 1..];
  }

  /** The processes of two permuted entry lists are permuted too. */
  lemma {:induction false} ProcsPermutation(a: seq<Entry>, b: seq<Entry>)
    requires multiset(a) == multiset(b)
    ensures multiset(Procs(a)) == multiset(Procs(b))
    decreases |a|
  {
    if a != [] {
      var x := a[|a| - 1];
      var a' := a[..|a| - 1];
      assert a == a' + [x];
      assert multiset(a') == multiset(a) - multiset{x};
      assert x in multiset(b);
      var i :| 0 <= i < |b| && b[i] == x;
      var b' := b[..i] + b[i + 1..];
      assert b == b[..i] + [x] + b[i + 1..];
      assert multiset(b') == multiset(b) - multiset{x};
      ProcsPermutation(a', b');
      assert Procs(a) == Procs(a') + [x.p];
      ProcsRemove(b, i);
    } else {
      assert |b| == |multiset(b)| == 0;
    }
  }

  /** The source's `sorted(queue, key=lambda x: (x.duration, x != queue[0]))`: a permutation
      of the list, ordered by remaining time. */
  function Resort(q: seq<Proc>): (r: seq<Proc>)
    ensures multiset(r) == multiset(q)
    ensures |r| == |q|
    ensures forall i, j :: 0 <= i < j < |r| ==> r[i].remaining <= r[j].remaining
  {
    var sorted := SortEntries(Tag(q));
    SortSorted(Tag(q));
    ProcsPermutation(sorted, Tag(q));
    assert Procs(Tag(q)) == q;
    assert |sorted| == |multiset(sorted)| == |Tag(q)|;
    Procs(sorted)
  }

  /** Reference for the selection rule: the first process, in list order, whose remaining time
      is minimal. */
  function FirstShortest(q: seq<Proc>): (i: nat)
    requires q != []
    ensures i < |q|
    ensures forall j :: 0 <= j < |q| ==> q[i].remaining <= q[j].remaining
    ensures forall j :: 0 <= j < i ==> q[j].remaining > q[i].remaining
  {
    if |q| == 1 then 0
    else
      var i := FirstShortest(q[1..]);
      if q[0].remaining <= q[1 + i].remaining then 0 else 1 + i
  }

  /** `es[i]` has a minimal key and every entry before it a strictly larger one. */
  ghost predicate FirstMinKey(es: seq<Entry>, i: nat) {
    && i < |es|
    && (forall j :: 0 <= j < |es| ==> KeyLe(es[i], es[j]))
    && (forall j :: 0 <= j < i ==> !KeyLe(es[j], es[i]))
  }

  /** The stable sort puts the first entry of minimal key at the front. */
  lemma {:induction false} SortHead(es: seq<Entry>, i: nat)
    requires FirstMinKey(es, i)
    ensures SortEntries(es) != [] && SortEntries(es)[0] == es[i]
    decreases |es|
  {
    var rest := SortEntries(es[1..]);
    assert SortEntries(es) == Insert(es[0], rest);
    if i == 0 {
      if rest != [] {
        assert rest[0] in multiset(es[1..]);
      }
    } else {
      assert FirstMinKey(es[1..], i - 1);
      SortHead(es[1..], i - 1);
    }
  }

  /** Selection rule of the sorted-list STCF: after the re-sort the head is the first process,
      in the list's previous order, of minimal remaining time. In particular the previous head
      keeps the CPU on a tie, and other ties keep their relative order. */
  lemma {:induction false} SelectionRule(q: seq<Proc>)
    requires q != []
    ensures Resort(q)[0] == q[FirstShortest(q)]
    ensures (forall j :: 0 <= j < |q| ==> q[0].remaining <= q[j].remaining) ==> Resort(q)[0] == q[0]
  {
    var i := FirstShortest(q);
    var es := Tag(q);
    forall j | 0 <= j < |es|
      ensures KeyLe(es[i], es[j])
    {
      if j == 0 && i != 0 {
        assert q[0].remaining > q[i].remaining;
      }
    }
    forall j | 0 <= j < i
      ensures !KeyLe(es[j], es[i])
    {
      assert q[j].remaining > q[i].remaining;
    }
    SortHead(es, i);
    assert Resort(q)[0] == SortEntries(es)[0].p;
  }

  /** The processes of `ps` with `v` units left, in list order. */
  function WithRemaining(ps: seq<Proc>, v: int): seq<Proc> {
    if ps == [] then [] else (if ps[0].remaining == v then [ps[0]] else []) + WithRemaining(ps[1..], v)
  }

  /** The entries of `es` whose process has `v` units left, in list order. */
  function EntriesWith(es: seq<Entry>, v: int): seq<Entry> {
    if es == [] then [] else (if es[0].p.remaining == v then [es[0]] else []) + EntriesWith(es[1..], v)
  }

  /** Inserting an entry whose tie value is not above that of any entry with the same remaining
      time puts it in front of all of them. */
  lemma {:induction false} InsertKeepsTies(x: Entry, s: seq<Entry>, v: int)
    requires forall j :: 0 <= j < |s| && s[j].p.remaining == v ==> x.tie <= s[j].tie
    ensures EntriesWith(Insert(x, s), v) == (if x.p.remaining == v then [x] else []) + EntriesWith(s, v)
    decreases |s|
  {
    if s == [] || KeyLe(x, s[0]) {
      assert ([x] + s)[1..] == s;
    } else {
      InsertKeepsTies(x, s[1..], v);
      var r := Insert(x, s);
      assert r == [s[0]] + Insert(x, s[1..]);
      assert r[1..] == Insert(x, s[1..]);
      assert x.p.remaining == v ==> s[0].p.remaining != v;
    }
  }

  /** The sort is stable: when the tie values do not decrease along the list, the entries of
      each remaining time keep their relative order. */
  lemma {:induction false} SortKeepsTies(es: seq<Entry>, v: int)
    requires forall i, j :: 0 <= i < j < |es| ==> es[i].tie <= es[j].tie
    ensures EntriesWith(SortEntries(es), v) == EntriesWith(es, v)
    decreases |es|
  {
    if es != [] {
      SortKeepsTies(es[1..], v);
      var rest := SortEntries(es[1..]);
      forall j | 0 <= j < |rest| && rest[j].p.remaining == v
        ensures es[0].tie <= rest[j].tie
      {
        assert rest[j] in multiset(es[1..]);
        var i :| 0 <= i < |es[1..]| && es[1..][i] == rest[j];
        assert es[1 + i] == rest[j];
      }
      InsertKeepsTies(es[0], rest, v);
    }
  }

  lemma {:induction false} ProcsWith(es: seq<Entry>, v: int)
    ensures WithRemaining(Procs(es), v) == Procs(EntriesWith(es, v))
    decreases |es|
  {
    if es != [] {
      ProcsWith(es[1..], v);
      assert Procs(es)[1..] == Procs(es[1..]);
      assert Procs(EntriesWith(es, v)) == Procs(if es[0].p.remaining == v then [es[0]] else []) + Procs(EntriesWith(es[1..], v));
    }
  }

  /** Stability of the re-sort: the processes with equal remaining time appear in the same
      relative order before and after it (the previous head, being first, stays first). */
  lemma ResortStable(q: seq<Proc>, v: int)
    ensures WithRemaining(Resort(q), v) == WithRemaining(q, v)
  {
    SortKeepsTies(Tag(q), v);
    ProcsWith(SortEntries(Tag(q)), v);
    ProcsWith(Tag(q), v);
    assert Procs(Tag(q)) == q;
  }

  // ---------------------------------------------------------------------------------------
  // The simulation loop
  // ---------------------------------------------------------------------------------------

  /** The loop state: not yet admitted processes (in arrival order), the ready list,
      the clock and the trace so far. */
  datatype State = State(pending: seq<Proc>, queue: seq<Proc>, time: int, trace: seq<Token>)

  /** Every process still in the system has work left. */
  ghost predicate Live(s: State) {
    && (forall i :: 0 <= i < |s.pending| ==> s.pending[i].remaining >= 1)
    && (forall i :: 0 <= i < |s.queue| ==> s.queue[i].remaining >= 1)
  }

  /** The ready list after this iteration's admissions. */
  function Admitted(s: State): seq<Proc> {
    s.queue + s.pending[..AdmitCount(s.pending, s.time)]
  }

  function Unfinished(s: State): seq<Proc> {
    s.pending + s.queue
  }

  /** One iteration of the outer loop: admit, re-sort, run the head one tick, advance the clock. */
  function Step(s: State): (r: State)
    requires Live(s)
    ensures Live(r)
    ensures r.time == s.time + 1
    ensures r.pending == s.pending[AdmitCount(s.pending, s.time)..]
    ensures s.trace <= r.trace
  {
    var k := AdmitCount(s.pending, s.time);
    var q := Resort(Admitted(s));
    ReadyLive(s);
    if q == [] then State(s.pending[k..], [], s.time + 1, s.trace)
    else
      var p := q[0];
      var emitted := [Run(p.name)] + (if IOFires(p) then [IO(p.name)] else []);
      State(s.pending[k..], AfterTick(q), s.time + 1, s.trace + emitted)
  }

  /** The ready list after its head ran one tick: the head is dropped when its work is done and
      otherwise replaced, in place, by its advanced state. */
  function AfterTick(q: seq<Proc>): seq<Proc>
    requires q != []
  {
    if q[0].remaining - 1 == 0 then q[1..] else [Advance(q[0])] + q[1..]
  }

  /** One tick of the head takes exactly one unit of work out of the list, and only from its name. */
  lemma TickWork(q: seq<Proc>, n: string)
    requires q != [] && q[0].remaining >= 1
    ensures Work(AfterTick(q), 0) + 1 == Work(q, 0)
    ensures WorkOf(AfterTick(q), n, 0) + (if n == q[0].name then 1 else 0) == WorkOf(q, n, 0)
  {
    var p := q[0];
    assert q == [p] + q[1..];
    WorkAppend([p], q[1..], 0);
    assert [p][..0] == [];
    assert WorkOf([p], n, 0) == if p.name == n then p.remaining else 0;
    if p.remaining > 1 {
      WorkAppend([Advance(p)], q[1..], 0);
      assert [Advance(p)][..0] == [];
      assert WorkOf([Advance(p)], n, 0) == if p.name == n then p.remaining - 1 else 0;
    }
  }

  lemma ReadyLive(s: State)
    requires Live(s)
    ensures forall i :: 0 <= i < |Resort(Admitted(s))| ==> Resort(Admitted(s))[i].remaining >= 1
    ensures forall i :: AdmitCount(s.pending, s.time) <= i < |s.pending| ==> s.pending[i].remaining >= 1
  {
    var q := Resort(Admitted(s));
    forall i | 0 <= i < |q|
      ensures q[i].remaining >= 1
    {
      assert q[i] in multiset(Admitted(s));
    }
  }

  /** The process the iteration runs: the head of the re-sorted ready list. */
  function Selected(s: State): Proc
    requires Admitted(s) != []
  {
    Resort(Admitted(s))[0]
  }

  /** An iteration with an empty ready list emits nothing and only advances the clock. */
  lemma StepIdle(s: State)
    requires Live(s) && Admitted(s) == []
    ensures Step(s).queue == [] && Step(s).trace == s.trace && Step(s).time == s.time + 1
    ensures Step(s).pending == s.pending
  {
  }

  /** An iteration with ready processes runs the first of minimal remaining time (the previous
      head on a tie) for one tick: it appends that process's `Run` token, followed by its marker
      exactly when work is left and the counter reaches the frequency, and nothing else. */
  lemma StepRunsShortest(s: State)
    requires Live(s) && Admitted(s) != []
    ensures var p := Selected(s); var q := Admitted(s);
      && p == q[FirstShortest(q)]
      && (forall j :: 0 <= j < |q| ==> p.remaining <= q[j].remaining)
      && ((forall j :: 0 <= j < |q| ==> q[0].remaining <= q[j].remaining) ==> p == q[0])
      && (Step(s).trace == s.trace + [Run(p.name)] || Step(s).trace == s.trace + [Run(p.name), IO(p.name)])
      && (Step(s).trace == s.trace + [Run(p.name), IO(p.name)] <==> p.remaining - 1 > 0 && p.sinceIO + 1 == p.ioFrequency)
  {
    SelectionRule(Admitted(s));
  }

  /** Nothing but the selected process changes in the ready list: it is removed when its work is
      done, and otherwise replaced by its state after the tick. */
  lemma StepQueue(s: State)
    requires Live(s) && Admitted(s) != []
    ensures var p := Selected(s);
      multiset(Step(s).queue) + multiset{p}
        == multiset(Admitted(s)) + (if p.remaining > 1 then multiset{Advance(p)} else multiset{})
  {
    var q := Resort(Admitted(s));
    assert q == [q[0]] + q[1..];
  }

  /** Work is the not-yet-admitted work plus the ready work. */
  lemma WorkSplit(s: State, n: string)
    requires Live(s)
    ensures var k := AdmitCount(s.pending, s.time);
      && Work(Unfinished(s), 0) == Work(s.pending[k..], 0) + Work(Admitted(s), 0)
      && WorkOf(Unfinished(s), n, 0) == WorkOf(s.pending[k..], n, 0) + WorkOf(Admitted(s), n, 0)
      && Work(Unfinished(Step(s)), 0) == Work(s.pending[k..], 0) + Work(Step(s).queue, 0)
      && WorkOf(Unfinished(Step(s)), n, 0) == WorkOf(s.pending[k..], n, 0) + WorkOf(Step(s).queue, n, 0)
  {
    var k := AdmitCount(s.pending, s.time);
    assert s.pending == s.pending[..k] + s.pending[k..];
    WorkAppend(s.pending[..k], s.pending[k..], 0);
    WorkAppend(s.queue, s.pending[..k], 0);
    WorkAppend(s.pending, s.queue, 0);
    WorkAppend(s.pending[k..], Step(s).queue, 0);
  }

  /** The ready list loses exactly the one unit of work the selected process executed. */
  lemma QueueWork(s: State, n: string)
    requires Live(s) && Admitted(s) != []
    ensures Work(Step(s).queue, 0) + 1 == Work(Admitted(s), 0)
    ensures WorkOf(Step(s).queue, n, 0) + (if n == Selected(s).name then 1 else 0) == WorkOf(Admitted(s), n, 0)
  {
    ReadyLive(s);
    WorkPermutation(Resort(Admitted(s)), Admitted(s), 0);
    TickWork(Resort(Admitted(s)), n);
  }

  /** The iteration's tokens hold exactly one `Run`, of the selected process. */
  lemma StepTokens(s: State, n: string)
    requires Live(s) && Admitted(s) != []
    ensures TotalRuns(Step(s).trace) == TotalRuns(s.trace) + 1
    ensures RunsOf(Step(s).trace, n) == RunsOf(s.trace, n) + (if n == Selected(s).name then 1 else 0)
  {
    var p := Selected(s);
    var marker := if IOFires(p) then [IO(p.name)] else [];
    var emitted := [Run(p.name)] + marker;
    assert Step(s).trace == s.trace + emitted;
    TotalsAppend(s.trace, emitted);
    TotalsAppend([Run(p.name)], marker);
    CountsAppend(s.trace, emitted, n);
    CountsAppend([Run(p.name)], marker, n);
  }

  /** Work conservation of one iteration: every executed tick is one `Run` token and one unit
      less of remaining work, per process name. */
  lemma StepConserves(s: State)
    requires Live(s)
    ensures TotalRuns(Step(s).trace) + Work(Unfinished(Step(s)), 0) == TotalRuns(s.trace) + Work(Unfinished(s), 0)
    ensures forall n :: RunsOf(Step(s).trace, n) + WorkOf(Unfinished(Step(s)), n, 0)
                     == RunsOf(s.trace, n) + WorkOf(Unfinished(s), n, 0)
  {
    WorkSplit(s, "");
    if Admitted(s) != [] {
      QueueWork(s, "");
      StepTokens(s, "");
    }
    forall n
      ensures RunsOf(Step(s).trace, n) + WorkOf(Unfinished(Step(s)), n, 0) == RunsOf(s.trace, n) + WorkOf(Unfinished(s), n, 0)
    {
      WorkSplit(s, n);
      if Admitted(s) != [] {
        QueueWork(s, n);
        StepTokens(s, n);
      }
    }
  }

  /** Each iteration either does one unit of work or, when nothing is ready, brings the clock one
      tick closer to the next arrival. */
  lemma StepProgress(s: State)
    requires Live(s) && Unfinished(s) != []
    ensures Work(Unfinished(Step(s)), 0) < Work(Unfinished(s), 0)
         || (Work(Unfinished(Step(s)), 0) == Work(Unfinished(s), 0) && Gap(Step(s).pending, Step(s).time) < Gap(s.pending, s.time))
  {
    WorkSplit(s, "");
    if Admitted(s) != [] {
      QueueWork(s, "");
    } else {
      assert s.pending != [] && s.pending[0].arrival > s.time;
    }
  }

  /** The outer loop `while processes or queue`, run to the end from `s`. */
  function RunToEnd(s: State): (r: State)
    requires Live(s)
    ensures r.pending == [] && r.queue == []
    ensures s.trace <= r.trace
    ensures TotalRuns(r.trace) == TotalRuns(s.trace) + Work(Unfinished(s), 0)
    ensures forall n :: RunsOf(r.trace, n) == RunsOf(s.trace, n) + WorkOf(Unfinished(s), n, 0)
    decreases Work(Unfinished(s), 0), Gap(s.pending, s.time)
  {
    if s.pending == [] && s.queue == [] then s
    else
      StepProgress(s);
      StepConserves(s);
      RunToEnd(Step(s))
  }

  /** The scheduler on an input list: starting at time 0 with nothing ready, it runs every
      process for exactly its duration, and each name's `Run` tokens add up to the durations of
      the records with that name. */
  function StcfScheduler(jobs: seq<Job>): (t: seq<Token>)
    requires forall i :: 0 <= i < |jobs| ==> jobs[i].duration >= 1
    ensures TotalRuns(t) == JobWork(jobs, 0)
    ensures forall n :: RunsOf(t, n) == JobWorkOf(jobs, n, 0)
  {
    var s := State(FromJobs(jobs), [], 0, []);
    WorkFromJobs(jobs, 0);
    assert Unfinished(s) == FromJobs(jobs);
    RunToEnd(s).trace
  }

  /** Every process still in the system has I/O switched off and a counter that has not gone
      negative. */
  ghost predicate NoIO(s: State) {
    && (forall i :: 0 <= i < |s.pending| ==> s.pending[i].ioFrequency <= 0 && s.pending[i].sinceIO >= 0)
    && (forall i :: 0 <= i < |s.queue| ==> s.queue[i].ioFrequency <= 0 && s.queue[i].sinceIO >= 0)
  }

  /** With I/O switched off, an iteration keeps it off ... */
  lemma NoIOStep(s: State)
    requires Live(s) && NoIO(s)
    ensures NoIO(Step(s))
  {
    var q := Resort(Admitted(s));
    ReadyNoIO(s);
    if q != [] {
      assert Step(s).queue == AfterTick(q);
      AfterTickNoIO(q);
    }
  }

  /** ... and emits no marker. */
  lemma NoIOQuiet(s: State)
    requires Live(s) && NoIO(s)
    ensures TotalMarkers(Step(s).trace) == TotalMarkers(s.trace)
  {
    var q := Resort(Admitted(s));
    ReadyNoIO(s);
    if q != [] {
      assert !IOFires(q[0]);
      assert Step(s).trace == s.trace + [Run(q[0].name)];
      TotalsAppend(s.trace, [Run(q[0].name)]);
    }
  }

  /** Admission and the re-sort only bring in processes from the pending and ready lists. */
  lemma ReadyNoIO(s: State)
    requires NoIO(s)
    ensures forall i :: 0 <= i < |Resort(Admitted(s))| ==>
      Resort(Admitted(s))[i].ioFrequency <= 0 && Resort(Admitted(s))[i].sinceIO >= 0
  {
    var q := Resort(Admitted(s));
    forall i | 0 <= i < |q|
      ensures q[i].ioFrequency <= 0 && q[i].sinceIO >= 0
    {
      assert q[i] in multiset(Admitted(s));
    }
  }

  /** A tick moves the I/O counter of the head up, never down. */
  lemma AfterTickNoIO(q: seq<Proc>)
    requires q != [] && forall i :: 0 <= i < |q| ==> q[i].ioFrequency <= 0 && q[i].sinceIO >= 0
    ensures forall i :: 0 <= i < |AfterTick(q)| ==> AfterTick(q)[i].ioFrequency <= 0 && AfterTick(q)[i].sinceIO >= 0
  {
  }

  /** A run in which no process has I/O switched on emits no marker at all. */
  lemma {:induction false} NoIORun(s: State)
    requires Live(s) && NoIO(s)
    ensures TotalMarkers(RunToEnd(s).trace) == TotalMarkers(s.trace)
    decreases Work(Unfinished(s), 0), Gap(s.pending, s.time)
  {
    if s.pending != [] || s.queue != [] {
      StepProgress(s);
      NoIOStep(s);
      NoIOQuiet(s);
      NoIORun(Step(s));
    }
  }

  /** On an input with every I/O frequency 0 or below, the trace holds no marker. */
  lemma SchedulerWithoutIO(jobs: seq<Job>)
    requires forall i :: 0 <= i < |jobs| ==> jobs[i].duration >= 1 && jobs[i].ioFrequency <= 0
    ensures TotalMarkers(StcfScheduler(jobs)) == 0
  {
    NoIORun(State(FromJobs(jobs), [], 0, []));
  }
}

=== FILE: stcf_heap.dfy ===
/** Shortest-Time-to-Completion-First over a binary heap, with a second heap for I/O.
    Every tick one process of least remaining time is popped and run for one tick; when it
    requests I/O it is also pushed onto the I/O heap, and the I/O heap is served, one marker per
    tick, only while the ready heap is empty.

    The heaps are modelled as unordered sequences. Popping the ready heap yields some process of
    least remaining time (which one among equals depends on the heap layout, so the model leaves
    it open); popping the I/O heap yields some waiting name (the objects on that heap keep being
    run and changed after they were pushed, so its order is not the order of their times). */
module StcfHeap {
  import opened Common

  /** `ready` is `queue`, `io` is `io_queue` (only the names of its processes are observed),
      `requests` counts the I/O requests issued so far; it is bookkeeping of the model. */
  datatype State = State(pending: seq<Proc>, ready: seq<Proc>, io: seq<string>, time: int,
                         trace: seq<Token>, requests: nat)

  /** `h[i]` has the least remaining time in `h`, the position `heappop` may take it from. */
  ghost predicate IsMin(h: seq<Proc>, i: int) {
    0 <= i < |h| && forall j :: 0 <= j < |h| ==> h[i].remaining <= h[j].remaining
  }

  lemma {:induction false} MinExists(h: seq<Proc>)
    requires h != []
    ensures exists i :: IsMin(h, i)
    decreases |h|
  {
    if |h| > 1 {
      MinExists(h[1..]);
      var i :| IsMin(h[1..], i);
      if h[0].remaining <= h[1 + i].remaining {
        assert IsMin(h, 0);
      } else {
        assert IsMin(h, 1 + i);
      }
    } else {
      assert IsMin(h, 0);
    }
  }

  /** The position `heappop` takes from a non-empty ready heap. */
  ghost function PopMin(h: seq<Proc>): (i: nat)
    requires h != []
    ensures IsMin(h, i)
  {
    MinExists(h);
    var i :| IsMin(h, i);
    i
  }

  function Remove<T>(h: seq<T>, i: nat): (r: seq<T>)
    requires i < |h|
    ensures |r| == |h| - 1
    ensures multiset(r) == multiset(h) - multiset{h[i]}
  {
    assert h == h[..i] + [h[i]] + h[i + 1..];
    h[..i] + h[i + 1..]
  }

  /** The ready heap after this iteration's admissions. */
  function Ready(s: State): seq<Proc> {
    s.ready + s.pending[..AdmitCount(s.pending, s.time)]
  }

  /** The process the iteration runs. */
  ghost function Chosen(s: State): (p: Proc)
    requires Ready(s) != []
    ensures p in Ready(s)
    ensures forall j :: 0 <= j < |Ready(s)| ==> p.remaining <= Ready(s)[j].remaining
  {
    Ready(s)[PopMin(Ready(s))]
  }

  /** One iteration of `while processes or queue or io_queue`. */
  ghost function Step(s: State): (r: State)
    ensures r.time == s.time + 1
    ensures r.pending == s.pending[AdmitCount(s.pending, s.time)..]
    ensures s.trace <= r.trace && |r.trace| <= |s.trace| + 1
  {
    var k := AdmitCount(s.pending, s.time);
    var h := Ready(s);
    if h != [] then
      var i := PopMin(h);
      var p := h[i];
      var rest := Remove(h, i);
      State(s.pending[k..],
            if p.remaining - 1 > 0 then rest + [Advance(p)] else rest,
            if IOFires(p) then s.io + [p.name] else s.io,
            s.time + 1,
            s.trace + [Run(p.name)],
            s.requests + if IOFires(p) then 1 else 0)
    else if s.io != [] then
      var j :| 0 <= j < |s.io|;
      State(s.pending[k..], [], Remove(s.io, j), s.time + 1, s.trace + [IO(s.io[j])], s.requests)
    else
      State(s.pending[k..], [], [], s.time + 1, s.trace, s.requests)
  }

  /** With a ready process, the iteration runs one of least remaining time for one tick, pushes
      its name onto the I/O heap exactly when the I/O test fires, and puts it back exactly when
      work is left; nothing else in the heaps changes. */
  lemma StepRunsShortest(s: State)
    requires Ready(s) != []
    ensures var p := Chosen(s); var r := Step(s);
      && r.trace == s.trace + [Run(p.name)]
      && multiset(r.ready) + multiset{p}
           == multiset(Ready(s)) + (if p.remaining > 1 then multiset{Advance(p)} else multiset{})
      && r.io == (if p.remaining - 1 > 0 && p.sinceIO + 1 == p.ioFrequency then s.io + [p.name] else s.io)
  {
    var h := Ready(s);
    var rest := Remove(h, PopMin(h));
    if Chosen(s).remaining > 1 {
      assert multiset(rest + [Advance(Chosen(s))]) == multiset(rest) + multiset{Advance(Chosen(s))};
    }
  }

  /** A marker is emitted exactly when no process is ready and one is waiting for I/O; it names a
      waiting process, which leaves the I/O heap. */
  lemma StepServesIO(s: State)
    ensures (exists n :: Step(s).trace == s.trace + [IO(n)]) <==> Ready(s) == [] && s.io != []
    ensures Ready(s) == [] && s.io != [] ==>
      exists j :: 0 <= j < |s.io| && Step(s).trace == s.trace + [IO(s.io[j])]
                  && multiset(Step(s).io) == multiset(s.io) - multiset{s.io[j]}
  {
    if Ready(s) != [] {
      StepRunsShortest(s);
      var t := Step(s).trace;
      forall n
        ensures t != s.trace + [IO(n)]
      {
        assert t[|s.trace|] == Run(Chosen(s).name);
      }
    }
  }

  /** Every I/O request is either still waiting or has produced exactly one marker. */
  ghost predicate RequestsAccounted(s: State) {
    TotalMarkers(s.trace) + |s.io| == s.requests
  }

  lemma StepAccounts(s: State)
    requires RequestsAccounted(s)
    ensures RequestsAccounted(Step(s))
  {
    var r := Step(s);
    TotalsAppend(s.trace, r.trace[|s.trace|..]);
    assert s.trace + r.trace[|s.trace|..] == r.trace;
  }

  function Unfinished(s: State): seq<Proc> {
    s.pending + s.ready
  }

  /** Work is the not-yet-admitted work plus the ready work, before and after the iteration. */
  lemma WorkSplit(s: State, n: string)
    ensures var k := AdmitCount(s.pending, s.time);
      && Work(Unfinished(s), 1) == Work(s.pending[k..], 1) + Work(Ready(s), 1)
      && WorkOf(Unfinished(s), n, 1) == WorkOf(s.pending[k..], n, 1) + WorkOf(Ready(s), n, 1)
      && Work(Unfinished(Step(s)), 1) == Work(s.pending[k..], 1) + Work(Step(s).ready, 1)
      && WorkOf(Unfinished(Step(s)), n, 1) == WorkOf(s.pending[k..], n, 1) + WorkOf(Step(s).ready, n, 1)
  {
    var k := AdmitCount(s.pending, s.time);
    assert s.pending == s.pending[..k] + s.pending[k..];
    WorkAppend(s.pending[..k], s.pending[k..], 1);
    WorkAppend(s.ready, s.pending[..k], 1);
    WorkAppend(s.pending, s.ready, 1);
    WorkAppend(s.pending[k..], Step(s).ready, 1);
  }

  /** Running `h[i]` for one tick takes exactly one unit of work out of the heap, and only from its
      name: a process with one unit or less left leaves, any other goes back advanced. */
  lemma TickWork(h: seq<Proc>, i: nat, n: string)
    requires i < |h|
    ensures var p := h[i]; var rest := Remove(h, i);
      && Work(if p.remaining - 1 > 0 then rest + [Advance(p)] else rest, 1) + 1 == Work(h, 1)
      && WorkOf(if p.remaining - 1 > 0 then rest + [Advance(p)] else rest, n, 1) + (if n == p.name then 1 else 0)
           == WorkOf(h, n, 1)
  {
    var p := h[i];
    var rest := Remove(h, i);
    WorkRemove(h, i, 1);
    if p.remaining - 1 > 0 {
      WorkAppend(rest, [Advance(p)], 1);
      assert [Advance(p)][..0] == [];
      assert WorkOf([Advance(p)], n, 1) == if p.name == n then p.remaining - 1 else 0;
    }
  }

  /** The ready heap loses exactly the one unit of work the chosen process executed. */
  lemma ReadyWork(s: State, n: string)
    requires Ready(s) != []
    ensures Work(Step(s).ready, 1) + 1 == Work(Ready(s), 1)
    ensures WorkOf(Step(s).ready, n, 1) + (if n == Chosen(s).name then 1 else 0) == WorkOf(Ready(s), n, 1)
  {
    TickWork(Ready(s), PopMin(Ready(s)), n);
  }

  /** The iteration's token is one `Run` of the chosen process, or none at all. */
  lemma StepTokens(s: State, n: string)
    ensures Ready(s) != [] ==> TotalRuns(Step(s).trace) == TotalRuns(s.trace) + 1
    ensures Ready(s) != [] ==> RunsOf(Step(s).trace, n) == RunsOf(s.trace, n) + (if n == Chosen(s).name then 1 else 0)
    ensures Ready(s) == [] ==> TotalRuns(Step(s).trace) == TotalRuns(s.trace)
    ensures Ready(s) == [] ==> RunsOf(Step(s).trace, n) == RunsOf(s.trace, n)
  {
    if Ready(s) != [] {
      StepRunsShortest(s);
      AppendToken(s.trace, Run(Chosen(s).name), n);
    } else if s.io != [] {
      StepServesIO(s);
      var j :| 0 <= j < |s.io| && Step(s).trace == s.trace + [IO(s.io[j])];
      AppendToken(s.trace, IO(s.io[j]), n);
    }
  }

  /** Work conservation of one iteration: every executed tick is one `Run` token and one unit less
      of owed work, per process name, counting every admitted process as owing at least one tick. */
  lemma StepConserves(s: State)
    ensures TotalRuns(Step(s).trace) + Work(Unfinished(Step(s)), 1) == TotalRuns(s.trace) + Work(Unfinished(s), 1)
    ensures forall n :: RunsOf(Step(s).trace, n) + WorkOf(Unfinished(Step(s)), n, 1)
                     == RunsOf(s.trace, n) + WorkOf(Unfinished(s), n, 1)
  {
    WorkSplit(s, "");
    StepTokens(s, "");
    if Ready(s) != [] {
      ReadyWork(s, "");
    }
    forall n
      ensures RunsOf(Step(s).trace, n) + WorkOf(Unfinished(Step(s)), n, 1) == RunsOf(s.trace, n) + WorkOf(Unfinished(s), n, 1)
    {
      WorkSplit(s, n);
      StepTokens(s, n);
      if Ready(s) != [] {
        ReadyWork(s, n);
      }
    }
  }

  /** Each iteration does one unit of work, or serves one I/O request, or brings the clock one
      tick closer to the next arrival. */
  lemma StepProgress(s: State)
    requires s.pending != [] || s.ready != [] || s.io != []
    ensures var r := Step(s);
      || Work(Unfinished(r), 1) < Work(Unfinished(s), 1)
      || (Work(Unfinished(r), 1) == Work(Unfinished(s), 1) && |r.io| < |s.io|)
      || (Work(Unfinished(r), 1) == Work(Unfinished(s), 1) && |r.io| == |s.io|
          && Gap(r.pending, r.time) < Gap(s.pending, s.time))
  {
    WorkSplit(s, "");
    if Ready(s) != [] {
      ReadyWork(s, "");
    } else if s.io == [] {
      assert s.pending != [] && s.pending[0].arrival > s.time;
    }
  }

  /** The outer loop run to the end from `s`: everything is run, every I/O request is served. */
  ghost function RunToEnd(s: State): (r: State)
    requires RequestsAccounted(s)
    ensures r.pending == [] && r.ready == [] && r.io == []
    ensures s.trace <= r.trace
    ensures TotalMarkers(r.trace) == r.requests
    ensures TotalRuns(r.trace) == TotalRuns(s.trace) + Work(Unfinished(s), 1)
    ensures forall n :: RunsOf(r.trace, n) == RunsOf(s.trace, n) + WorkOf(Unfinished(s), n, 1)
    decreases Work(Unfinished(s), 1), |s.io|, Gap(s.pending, s.time)
  {
    if s.pending == [] && s.ready == [] && s.io == [] then s
    else
      StepProgress(s);
      StepConserves(s);
      StepAccounts(s);
      RunToEnd(Step(s))
  }

  /** The scheduler on an input list: every process runs for its duration, and at least one tick
      (a process admitted with no time left still runs once), and every I/O request it issues
      yields exactly one marker. */
  ghost function HeapScheduler(jobs: seq<Job>): (r: State)
    ensures TotalRuns(r.trace) == JobWork(jobs, 1)
    ensures forall n :: RunsOf(r.trace, n) == JobWorkOf(jobs, n, 1)
    ensures TotalMarkers(r.trace) == r.requests
    ensures r.pending == [] && r.ready == [] && r.io == []
  {
    var s := State(FromJobs(jobs), [], [], 0, [], 0);
    WorkFromJobs(jobs, 1);
    assert Unfinished(s) == FromJobs(jobs);
    RunToEnd(s)
  }
}
